=== FILE: README.md ===
# Employees: cache coherence and the write-command codec

A Dafny model of the core of the Employees system. The system has two
services:

- a **gateway** serves a REST API for employee records;
- a **domain service** owns the records.

Reads in the gateway are read-through. The gateway asks its Redis cache
first. On a miss it calls the domain service over gRPC, then stores the
answer in the cache with a one-hour expiry.

Writes are asynchronous. The gateway encodes each write as one line of text
(`CREATE:...`, `UPDATE:id,...`, `DELETE:id`) and publishes it to a message
queue. It then drops the affected cache entries and answers 202 without
waiting. The domain service's listener decodes each queued line and applies
it to the store.

The model turns all of this into sequential transitions over explicit state:
a cache map with absolute expiry times, a store, a FIFO queue of published
lines, and a clock. Every I/O boundary becomes a value:

- A Redis round trip, a gRPC call or a publish either succeeds or fails. The
  caller passes that outcome in as a flag (`Gateway.Env` holds them for one
  request).
- Time is the `clock` field of `Gateway.System`. It moves only through
  `Gateway.Advance`.
- Delivery of a queued line is an explicit step, `Gateway.Deliver`.
  Requests and deliveries interleave as sequences of calls. Each endpoint
  is one step, except that a read which misses the cache is split in two
  (`Gateway.FetchEmployee`, then `Gateway.AnswerFetched`), so that a write
  and its delivery can run between the fetch and the caching.

The modules follow the program's structure:

| module | file | models |
|---|---|---|
| `Basics` | basics.dfy | `Option`, `Result`, the failures a call can end in |
| `Decimal` | decimal.dfy | `Long.toString` / `%d` and `Long.parseLong` |
| `Text` | text.dfy | Java `String.split` on one character, and joining |
| `Records` | records.dfy | the employee record (`Employee`, `EmployeeDto`, `NewEmployeeRequest`) |
| `Repository` | repository.dfy | the JPA repository behind the domain service |
| `GrpcServer` | grpc_server.dfy | `EmployeeServiceGrpcImpl` |
| `GrpcClient` | grpc_client.dfy | `EmployeeGrpcClient` |
| `Command` | command.dfy | the text commands: how the controller formats them and how the listener parses them |
| `Listener` | listener.dfy | `RabbitMQListener.processMessage` |
| `Cache` | cache.dfy | `RedisCacheService` |
| `Gateway` | gateway.dfy | `EmployeeGatewayController`, publishing, delivery and time |
| `Scenarios` | scenarios.dfy | whole-system interleavings |

### Two behaviours that differ from what the API implies (the model follows the code)

- **Write responses when the broker fails.** A write whose message cannot be
  published should fail. In the code, `RabbitMQSender.sendMessage` catches
  and logs every exception, and the controller always answers 202.
  Consequences in the model:
  - `Gateway.Publish` drops the message when the broker is down.
  - Every write endpoint answers 202 whatever the broker did.
  - `Scenarios.LostWriteStillAccepted` shows an accepted write that never
    reaches the store.
- **The status of a delete.** A successful delete should answer 204.
  `deleteEmployee` answers 202, like the other writes, because the delete
  has not happened yet when the answer is sent.

## Model

| member | source | states |
|---|---|---|
| Decimal.LongToString | gateway-service/src/main/java/org/example/controllers/EmployeeGatewayController.java:87-89 | `%d` prints an id as an optional minus sign followed by digits. The text is never empty and never holds the message delimiters `:` or `,`. |
| Decimal.ParseLong | domain-service/src/main/java/org/example/listener/RabbitMQListener.java:62 | `Long.parseLong` rejects the empty text. Without a leading `-` it gives a non-negative number. A plain digit string within range gives its decimal value. The full grammar is stated by `Decimal.ParseLongGrammar`. |
| Decimal.ParseLongGrammar | domain-service/src/main/java/org/example/listener/RabbitMQListener.java:62 | `Long.parseLong` succeeds exactly on an optional `+` or `-` followed by at least one digit whose value lies in the `long` range, and gives that value (negated after a `-`). Every other text, including the empty one, is rejected. |
| Decimal.DigitsRoundTrip | domain-service/src/main/java/org/example/listener/RabbitMQListener.java:62 | Reading back the digits printed for a natural number gives that number. |
| Decimal.ParseLongRoundTrip | domain-service/src/main/java/org/example/listener/RabbitMQListener.java:62 | Parsing the printed form of any `long` gives the same `long` back. This is the id round trip through an `UPDATE`/`DELETE` message. |
| Decimal.LongToStringInjective | gateway-service/src/main/java/org/example/service/RedisCacheService.java:35 | Distinct ids print as distinct texts. |
| Text.SplitAll | domain-service/src/main/java/org/example/listener/RabbitMQListener.java:46 | Cutting at every delimiter gives at least one piece. No piece contains the delimiter. Text without the delimiter is one piece. |
| Text.Split | domain-service/src/main/java/org/example/listener/RabbitMQListener.java:46 | Java `split`: text without the delimiter gives itself. Otherwise the result is a prefix of the full cut that does not end in an empty piece, and every piece of the full cut beyond it is empty: exactly the trailing empty pieces are removed. No piece holds the delimiter. |
| Text.SplitJoin | domain-service/src/main/java/org/example/listener/RabbitMQListener.java:51 | Splitting a join gives the pieces back when no piece contains the delimiter and the last piece is not empty. |
| Text.SplitKeepsFirstPiece | domain-service/src/main/java/org/example/listener/RabbitMQListener.java:46-47 | The operation name is the text before the first `:`, whatever follows it. |
| Records.ParseSalary | domain-service/src/main/java/org/example/listener/RabbitMQListener.java:55 | A salary token parses exactly when it is non-empty and holds a decimal point, as every text `%f` prints does. It parses to itself. |
| Records.ParseDate | domain-service/src/main/java/org/example/listener/RabbitMQListener.java:56 | A date token parses exactly when it is non-empty and holds no decimal point, as no ISO date does. It parses to itself. |
| Records.SalaryIsNeverADate | domain-service/src/main/java/org/example/listener/RabbitMQListener.java:55-56 | No salary text parses as a hire date. |
| Repository.EmptyStore | domain-service/src/main/java/org/example/service/serviceImpl/EmployeeServiceImpl.java:19-21 | A fresh table satisfies the store invariant and `findAll` lists nothing. |
| Repository.FindById | domain-service/src/main/java/org/example/service/serviceImpl/EmployeeServiceImpl.java:22-24 | The result is present exactly when the id has a row, and it is that row. In a valid store the row carries the id it was looked up by. |
| Repository.FindAll | domain-service/src/main/java/org/example/service/serviceImpl/EmployeeServiceImpl.java:19-21 | Only stored rows are listed. In a valid store there is one entry per id of the listing order, in that order (see the Left out line for `Repository.FindAll`). |
| Repository.RowsInOrder | domain-service/src/main/java/org/example/service/serviceImpl/EmployeeServiceImpl.java:19-21 | Every listed row is a stored row. When every ordered id has a row, the listing has one entry per id, in order. |
| Repository.SaveNew | domain-service/src/main/java/org/example/service/serviceImpl/EmployeeServiceImpl.java:25-27 | Saving an entity without an id inserts it under the next generated id. The id was unused. All other rows are unchanged. `findAll` gains the new row at the end. The invariant is kept. |
| Repository.SaveWithId | domain-service/src/main/java/org/example/service/serviceImpl/EmployeeServiceImpl.java:25-27 | Saving an entity whose id has a row overwrites that row in place; other rows and the listing order are unchanged. An unknown id is handled by the store's policy: either nothing is written, or it is exactly a fresh insert. The invariant is kept. |
| Repository.Without | domain-service/src/main/java/org/example/service/serviceImpl/EmployeeServiceImpl.java:28-30 | The listing order loses exactly the deleted id and stays free of duplicates. |
| Repository.DeleteById | domain-service/src/main/java/org/example/service/serviceImpl/EmployeeServiceImpl.java:28-30 | After deleting an id, no row has it. Every other row is unchanged. An absent id is a no-op. The invariant is kept. |
| Repository.FindAllListsEveryRowOnce | domain-service/src/main/java/org/example/service/serviceImpl/EmployeeServiceImpl.java:19-21 | In a valid store, `findAll` lists every stored row exactly once. Each listed entry is the row stored under its id. |
| GrpcServer.ParseFields | domain-service/src/main/java/org/example/grpc/EmployeeServiceGrpcImpl.java:48-53 | Request fields convert exactly when the hire date parses. The converted fields travel back to the same request. |
| GrpcServer.Render | domain-service/src/main/java/org/example/grpc/EmployeeServiceGrpcImpl.java:31-37 | A stored row never renders as the default instance. |
| GrpcServer.GetEmployee | domain-service/src/main/java/org/example/grpc/EmployeeServiceGrpcImpl.java:25-44 | The answer is the default instance exactly when the id has no row. Otherwise it carries that row's five fields. |
| GrpcServer.CreateEmployee | domain-service/src/main/java/org/example/grpc/EmployeeServiceGrpcImpl.java:46-63 | With a parsable hire date, a row holding the request's fields is inserted. The answer is the generated id, which was unused; nothing else changes. An unparsable date makes the handler fail. |
| GrpcServer.UpdateEmployee | domain-service/src/main/java/org/example/grpc/EmployeeServiceGrpcImpl.java:65-91 | An absent id answers false and writes nothing. An existing id answers true and has all four fields overwritten. The id and every other row stay the same. An unparsable date on an existing id makes the handler fail. |
| GrpcServer.DeleteEmployee | domain-service/src/main/java/org/example/grpc/EmployeeServiceGrpcImpl.java:93-111 | The answer is true exactly when the id had a row. Afterwards the id has no row and the others are unchanged. On false the store is untouched. |
| GrpcServer.GetAllEmployees | domain-service/src/main/java/org/example/grpc/EmployeeServiceGrpcImpl.java:112-134 | One response per stored row, in `findAll` order. |
| GrpcClient.ConvertToDto | gateway-service/src/main/java/org/example/grpc/EmployeeGrpcClient.java:87-96 | A response converts exactly when its hire date parses. The result carries the response's fields one for one, so rendering it gives the response back. |
| GrpcClient.FromGetResponse | gateway-service/src/main/java/org/example/grpc/EmployeeGrpcClient.java:30-38 | Only the case split of `getEmployeeById` on the answer: the default instance means absent, anything else is converted. What it yields for a real store is stated by `GrpcClient.GetEmployeeById`. |
| GrpcClient.GetEmployeeById | gateway-service/src/main/java/org/example/grpc/EmployeeGrpcClient.java:24-39 | Combined with the server, the client finds exactly the stored row. The result is present exactly when the id has a row, and the call never fails: no stored row is mistaken for the default instance, and its hire date always converts back. |
| GrpcClient.CreateEmployee | gateway-service/src/main/java/org/example/grpc/EmployeeGrpcClient.java:41-53 | The created record is read back under the generated id with the submitted fields. The read-back never fails. |
| GrpcClient.UpdateEmployee | gateway-service/src/main/java/org/example/grpc/EmployeeGrpcClient.java:55-73 | When the server reports failure (the id has no row), the result is empty and the store is unchanged. Otherwise the result is the re-read row, carrying the new fields. |
| GrpcClient.DeleteEmployee | gateway-service/src/main/java/org/example/grpc/EmployeeGrpcClient.java:75-84 | Returns the server's flag unchanged: true exactly when the id had a row. |
| GrpcClient.ConvertAll | gateway-service/src/main/java/org/example/grpc/EmployeeGrpcClient.java:102-104 | The list converts exactly when every element converts. It keeps length and order, element by element. |
| GrpcClient.GetAllEmployees | gateway-service/src/main/java/org/example/grpc/EmployeeGrpcClient.java:97-108 | Combined with the server, the gateway receives exactly `findAll`, in order, and the call never fails. |
| GrpcClient.ConvertAllRendered | gateway-service/src/main/java/org/example/grpc/EmployeeGrpcClient.java:102-104 | Converting the responses rendered from a list of rows gives back those rows. |
| Command.Payload | gateway-service/src/main/java/org/example/controllers/EmployeeGatewayController.java:74-100 | The text after `OPERATION:` is never empty. It holds no `:` when no field does. |
| Command.Encode | gateway-service/src/main/java/org/example/controllers/EmployeeGatewayController.java:74-100 | A message is the operation name, a `:` and a non-empty payload. For a command whose fields hold no delimiter, no further `:` follows, so the listener's split sees exactly two parts. |
| Command.Decode | domain-service/src/main/java/org/example/listener/RabbitMQListener.java:45-49 | A decoded command comes from at least two `:`-pieces, and the first piece names its operation. An unknown operation is the first piece and is none of CREATE/UPDATE/DELETE. |
| Command.DecodeParts | domain-service/src/main/java/org/example/listener/RabbitMQListener.java:47-75 | The outcome is unknown exactly when there is a first piece naming none of CREATE/UPDATE/DELETE. A known operation without a second piece throws. CREATE and UPDATE decode the second piece's `,`-pieces. DELETE gives a command exactly when the second piece is a `long`, and that `long` is the id; otherwise it throws at the number. |
| Command.DecodeCreate | domain-service/src/main/java/org/example/listener/RabbitMQListener.java:50-58 | A CREATE payload parses exactly when it has at least four pieces, piece 2 is a salary token and piece 3 a date token. The command's fields are pieces 0 to 3, and extra pieces are ignored. |
| Command.DecodeUpdate | domain-service/src/main/java/org/example/listener/RabbitMQListener.java:60-70 | An UPDATE payload parses exactly when it has at least five pieces, piece 0 is a `long`, piece 3 is a salary token and piece 4 a date token. The id is piece 0 and the fields are pieces 1 to 4. |
| Command.SplitMessage | domain-service/src/main/java/org/example/listener/RabbitMQListener.java:46 | `op:payload` with no `:` in either part splits into exactly those two parts. |
| Command.PayloadRoundTrip | domain-service/src/main/java/org/example/listener/RabbitMQListener.java:51 | A payload joined with `,` splits back into its fields when no field contains `,` or `:` and the last is non-empty. |
| Command.DecodeEncode | domain-service/src/main/java/org/example/listener/RabbitMQListener.java:45-76 | Decoding any message the controller formats gives back the original command, provided no field contains `,` or `:`. The salary comes back as the text `%f` printed (see the Left out line for `Records.ParseSalary`). |
| Command.DecodeEncodeCreate | gateway-service/src/main/java/org/example/controllers/EmployeeGatewayController.java:74-76 | The round trip for `CREATE:name,position,salary,hireDate`. |
| Command.DecodeEncodeUpdate | gateway-service/src/main/java/org/example/controllers/EmployeeGatewayController.java:87-89 | The round trip for `UPDATE:id,name,position,salary,hireDate`. |
| Command.DecodeEncodeDelete | gateway-service/src/main/java/org/example/controllers/EmployeeGatewayController.java:100 | The round trip for `DELETE:id`, for every `long` id. |
| Command.DecodedFieldsHoldNoComma | domain-service/src/main/java/org/example/listener/RabbitMQListener.java:51-68 | Every field of a decoded CREATE or UPDATE is a piece of the payload's `,`-split, so none holds `,`. |
| Command.CommaInFieldNeverRoundTrips | domain-service/src/main/java/org/example/listener/RabbitMQListener.java:51-68 | A CREATE or UPDATE with `,` in any field never decodes back to itself, from its own message or any other: the employee that was sent is never written. |
| Command.CommaInNameShiftsFields | domain-service/src/main/java/org/example/listener/RabbitMQListener.java:51-56 | A name containing exactly one `,` shifts every later field one place, so the salary text is read as the hire date. That always throws, because a salary has a decimal point and a date has none; the position is read as the salary and throws first when it is not one. Nothing is written. (With more commas the shifted pieces can parse, and another employee is written; `Command.CommaInFieldNeverRoundTrips` covers that case.) |
| Command.ColonInNameCutsPayload | domain-service/src/main/java/org/example/listener/RabbitMQListener.java:46-51 | A name containing `:` cuts the message short: the listener reads the fields from the part of the name before the `:` alone. |
| Command.ColonInNameIsMalformed | domain-service/src/main/java/org/example/listener/RabbitMQListener.java:46-56 | When the part of the name before the `:` has fewer than four `,`-pieces, decoding fails and nothing is written; with fewer than three it fails at a missing piece. |
| Command.ColonAfterFourFieldsWritesThem | domain-service/src/main/java/org/example/listener/RabbitMQListener.java:46-57 | When the part of the name before the `:` reads as four fields, an employee made of those four is written, different from the one sent. |
| Command.TooFewCreateFieldsIsMalformed | domain-service/src/main/java/org/example/listener/RabbitMQListener.java:51-56 | A CREATE payload with fewer than four fields fails to decode, so there is no partial write. |
| Command.CreatePayloadDecodes | domain-service/src/main/java/org/example/listener/RabbitMQListener.java:46-51 | `CREATE:` followed by a payload with no `:` is decoded from that payload's `,`-pieces. |
| Command.UnknownOperationIsIgnored | domain-service/src/main/java/org/example/listener/RabbitMQListener.java:49 | Any operation name other than CREATE/UPDATE/DELETE decodes as unknown, whatever follows it. |
| Listener.Apply | domain-service/src/main/java/org/example/listener/RabbitMQListener.java:50-74 | Per command:<br>- CREATE inserts the fields under the next id;<br>- UPDATE of an existing id overwrites just that row;<br>- UPDATE of an unknown id writes nothing under the skip policy, and is a fresh insert under the other policy;<br>- DELETE removes just that id.<br>The store invariant is kept. |
| Listener.ProcessMessage | domain-service/src/main/java/org/example/listener/RabbitMQListener.java:45-76 | A message that does not decode, or names an unknown operation, leaves the store unchanged. A decoded one is applied. The store invariant is kept. |
| Listener.ProcessEncoded | domain-service/src/main/java/org/example/listener/RabbitMQListener.java:45-76 | A delimiter-free command that the controller publishes is applied as exactly that command. |
| Listener.DuplicateCreateMakesTwoRows | domain-service/src/main/java/org/example/listener/RabbitMQListener.java:50-58 | A CREATE delivered twice makes two rows with distinct ids and the same fields. |
| Listener.DuplicateUpdateIsIdempotent | domain-service/src/main/java/org/example/listener/RabbitMQListener.java:60-70 | An UPDATE delivered twice has the effect of one delivery, when the id has a row or unknown ids are skipped. |
| Listener.ApplyUpdateTwice | domain-service/src/main/java/org/example/listener/RabbitMQListener.java:60-70 | Saving the same UPDATE twice has the effect of saving it once, when the id has a row or unknown ids are skipped. |
| Listener.DuplicateUpdateOfAbsentIdInsertsTwice | domain-service/src/main/java/org/example/listener/RabbitMQListener.java:60-70 | When unknown ids are inserted fresh, an UPDATE of an absent id delivered twice inserts two rows. |
| Listener.ApplyUpdateOfAbsentIdTwice | domain-service/src/main/java/org/example/listener/RabbitMQListener.java:69 | The same as the lemma above, stated for the applied command. |
| Listener.DuplicateDeleteIsIdempotent | domain-service/src/main/java/org/example/listener/RabbitMQListener.java:72-74 | A DELETE delivered twice has the effect of one delivery. |
| Cache.EmployeeKey | gateway-service/src/main/java/org/example/service/RedisCacheService.java:17-18 | A record key starts with `employee:` and never equals the list key `employees:all`. |
| Cache.EmployeeKeyInjective | gateway-service/src/main/java/org/example/service/RedisCacheService.java:35 | Distinct ids have distinct record keys. |
| Cache.Get | gateway-service/src/main/java/org/example/service/RedisCacheService.java:39 | The expiry rule: a read hits exactly when the key is present and its expiry time has not been reached. What a read returns after each write is stated by the writers' contracts (`Cache.CacheEmployee`, `Cache.CacheAllEmployees`, the evictions). |
| Cache.GetCachedEmployee | gateway-service/src/main/java/org/example/service/RedisCacheService.java:34-53 | The case split of the read: a record only from an unexpired record entry; nothing on a miss, on another kind of value, or on a Redis failure. Read-back after writes is stated by `Cache.CacheEmployee` and `Cache.EvictEmployee`. |
| Cache.EvictAllEmployees | gateway-service/src/main/java/org/example/service/RedisCacheService.java:131-144 | Afterwards the list reads as empty at every time. Every other key is untouched. A Redis failure changes nothing. |
| Cache.UpdateAllEmployeesCache | gateway-service/src/main/java/org/example/service/RedisCacheService.java:145-147 | Only evicts the list; every other key is untouched. |
| Cache.CacheEmployee | gateway-service/src/main/java/org/example/service/RedisCacheService.java:55-72 | The record reads back for the next hour, then misses. The list is evicted as well. A failed SET skips the eviction and changes nothing. No other record key changes. |
| Cache.GetCachedAllEmployees | gateway-service/src/main/java/org/example/service/RedisCacheService.java:75-90 | The case split of the read: a list only from an unexpired list entry; otherwise, and on a Redis failure, the empty list. Read-back after writes is stated by `Cache.CacheAllEmployees` and the evictions. |
| Cache.CacheAllEmployees | gateway-service/src/main/java/org/example/service/RedisCacheService.java:93-107 | An empty list leaves the cache entirely unchanged. A non-empty one reads back for exactly the next hour. Record keys are never touched. |
| Cache.EvictEmployee | gateway-service/src/main/java/org/example/service/RedisCacheService.java:110-129 | The record misses at every time afterwards. The list is evicted too, whether or not the record was cached. A failed DEL changes nothing. Other keys are untouched. |
| Cache.OtherRecordsUntouched | gateway-service/src/main/java/org/example/service/RedisCacheService.java:56-60 | No cache operation on one id changes what a lookup of a different id returns. |
| Gateway.FetchEmployee | gateway-service/src/main/java/org/example/controllers/EmployeeGatewayController.java:40 | The store half of a miss: succeeds exactly when gRPC is reachable, and then gives exactly the stored row or nothing. |
| Gateway.AnswerFetched | gateway-service/src/main/java/org/example/controllers/EmployeeGatewayController.java:40-45 | The cache half of a miss: a failure answers 500, nothing answers 404 and caches nothing, a record answers 200 and is cached for the hour starting when this step runs, with the list evicted and every other key left alone. With Redis down the cache is unchanged. The store, queue and clock are untouched. |
| Gateway.GetEmployeeById | gateway-service/src/main/java/org/example/controllers/EmployeeGatewayController.java:31-46 | A hit answers 200 from the cache and changes nothing. On a miss:<br>- a failed gRPC call answers 500;<br>- an id with no row answers 404 and caches nothing;<br>- an id with a row answers 200 with it, caches it for exactly the next hour and evicts the list, leaving every other key alone.<br>With Redis down the cache is unchanged. The store, queue and clock never change. |
| Gateway.GetAllEmployees | gateway-service/src/main/java/org/example/controllers/EmployeeGatewayController.java:48-67 | A non-empty cached list answers 200 without the store. Otherwise:<br>- an empty store answers 204 and caches nothing;<br>- a non-empty one answers 200 with `findAll` and caches it for exactly the next hour, after which the list misses.<br>With Redis down the cache is unchanged. Record keys never change. |
| Gateway.Publish | gateway-service/src/main/java/org/example/service/RabbitMQSender.java:25-33 | With the broker up the message joins the end of the queue. With it down the queue is unchanged and the message is lost. |
| Gateway.CreateEmployee | gateway-service/src/main/java/org/example/controllers/EmployeeGatewayController.java:70-81 | Publishes `CREATE:...` and evicts only the list. Record entries are untouched. Answers 202 whatever the broker did. The store is not written. |
| Gateway.UpdateEmployee | gateway-service/src/main/java/org/example/controllers/EmployeeGatewayController.java:83-94 | Publishes `UPDATE:id,...`, evicts that record and the list, and answers 202. The store is not written. |
| Gateway.DeleteEmployee | gateway-service/src/main/java/org/example/controllers/EmployeeGatewayController.java:96-105 | Publishes `DELETE:id`, evicts that record and the list, and answers 202. The store is not written. |
| Gateway.Deliver | domain-service/src/main/java/org/example/listener/RabbitMQListener.java:24-28 | The oldest queued message is removed and processed against the store. The cache is untouched. The store invariant is kept. |
| Gateway.CacheHitIgnoresStore | gateway-service/src/main/java/org/example/controllers/EmployeeGatewayController.java:35-38 | On a hit, the answer and the cache afterwards do not depend on the store or on whether gRPC is reachable. |
| Scenarios.StaleReadAfterUpdate | gateway-service/src/main/java/org/example/controllers/EmployeeGatewayController.java:31-46 | A read between an accepted update and its delivery caches the old row. After the update is applied, a read at any instant within the hour returns the old row, and a read at any instant from the hour on returns the new one. |
| Scenarios.ReadRacingUpdateCachesStaleRow | gateway-service/src/main/java/org/example/controllers/EmployeeGatewayController.java:40-45 | A read that missed the cache runs exactly as `GetEmployeeById` split in two. If it fetched the old row and an update is then accepted and delivered, it caches that old row afterwards: the store holds the new row, yet every read for the next hour answers the old one. |
| Scenarios.ReadsAcrossExpiry | gateway-service/src/main/java/org/example/controllers/EmployeeGatewayController.java:31-46 | While a record is cached, every read within its hour answers the cached record whatever the store holds; every read from the expiry on answers the stored row. |
| Scenarios.CreateThenRead | gateway-service/src/main/java/org/example/controllers/EmployeeGatewayController.java:40-81 | After a create is accepted and delivered:<br>- the listing ends with the new row;<br>- a read of the generated id misses the cache, finds the row, and caches it. |
| Scenarios.MissingIdIsNeverCached | gateway-service/src/main/java/org/example/controllers/EmployeeGatewayController.java:40-45 | Looking up an id with no row answers 404 each time and leaves the cache as it was. |
| Scenarios.RedisDownReadsThrough | gateway-service/src/main/java/org/example/service/RedisCacheService.java:48-52 | With Redis down, every read answers from the store and nothing is cached. |
| Scenarios.LostWriteStillAccepted | gateway-service/src/main/java/org/example/service/RabbitMQSender.java:25-33 | With the broker down, an update still answers 202, but the queue is exactly as before, so every later delivery does what it would have done without the request. |

## Left out

- Spring, Redis, gRPC and AMQP wiring (the configuration classes and the domain service's `Main`): startup only, no logic.
- Jackson serialisation of cached values: treated as identity, so a cached record reads back equal.
- Logging, and the real threads of the two services: interleavings are explicit sequences of calls.
- The commented-out delayed variant of the listener: it only adds a sleep before the same processing.
- Null fields and null lists: each record field is a value.
- Records.ParseSalary: accepts any non-empty token with a decimal point, which is not `Double.parseDouble`'s grammar: it also accepts texts such as `a.b`, and it rejects point-free numbers such as `1000`, which `%f` never prints. The salary is carried as the text `%f` prints, not as a `double`: `%f` rounds to six decimals (HALF_UP), so the round trip in `Command.DecodeEncode` is for that text, and a `double` with more precision comes back rounded. `NaN` and the infinities, which `%f` prints without a point, are not modelled.
- Records.ParseDate: accepts any non-empty token without a decimal point, which is weaker than `LocalDate.parse`'s ISO date grammar. The hire date is a token printed by `toString`.
- Locales are ignored throughout. `%f` prints a decimal comma in some locales, which would add a `,` to the message, and `%d` prints non-ASCII digits in some; the round trip requires delimiter-free fields and models `%d` as ASCII digits.
- Decimal.ParseLong: accepts only ASCII digits. Java's `parseLong` also accepts other Unicode decimal digits.
- Repository.SaveNew: ids come from a counter that starts at 1 and grows by one per insert, so consecutive inserts get consecutive ids (`Listener.DuplicateUpdateOfAbsentIdInsertsTwice` names the second one as `nextId + 1`). The entity's id generation strategy is not part of this model; a database sequence with gaps or a larger allocation size would hand out other ids.
- Repository.FindAll: lists rows in insertion order. The JPA query behind `findAll` has no ORDER BY, so the database may return another order; the model fixes insertion order, and statements about the position of a row in a listing (such as the last entry in `Scenarios.CreateThenRead`) hold only for a database that returns that order.
- Repository.SaveWithId: what JPA's `save` does with an id that has no row depends on the persistence provider. That repository is not part of this model. The choice is a parameter of the store (`MissingIdSave`), and each property states which choice it needs.
- Overflow of the generated id past the `long` range: ids are unbounded integers. Scenarios that print a generated id require it to be in range.
- Redeliveries and retries by the message transport after a listener exception: a message that fails to decode is simply dropped.
- Expiry of Redis keys by the server: an expired key stays in the map, and every read treats it as a miss, which is the same observable behaviour.
- Gateway.GetAllEmployees, and each write endpoint: one atomic step each. The same race as `Scenarios.ReadRacingUpdateCachesStaleRow` exists for the list (fetched, then cached after a write has evicted it) but is not modelled; only the single-record read is split into its fetch and its caching.
- Cross-service failures inside one endpoint are per call: the cache layer takes one success flag per Redis round trip. The controller passes the same Redis flag to every round trip of one request.

=== FILE: basics.dfy ===
/** Small failure-carrying datatypes shared by every other module.
    `Option` stands for Java's `Optional` and for a nullable reference;
    `Result` stands for a call that either returns or throws. */
module Basics {

  datatype Option<+T> = None | Some(value: T)

  datatype Result<+T, +E> = Ok(value: T) | Err(error: E)

  /** What a failed call on the domain side threw, as far as the gateway can tell. */
  datatype Fault =
    | HandlerThrew      // the gRPC handler threw (e.g. an unparsable hire date)
    | ConversionFailed  // the gateway could not convert a response to a DTO
    | NoSuchElement     // Optional.orElseThrow on an empty Optional
    | TransportFailed   // the gRPC server could not be reached
}

=== FILE: cache.dfy ===
/** The gateway's Redis cache layer (`RedisCacheService`).

    Redis is a map from string keys to entries that carry an absolute expiry
    time (seconds on the gateway's clock); a key read at or after its expiry
    is a miss even if Redis has not yet removed it. Two keyspaces share it:
    `employee:{id}` holds one record, `employees:all` holds the whole list.
    Every operation is fail-open: each Redis round trip takes a flag saying
    whether it succeeded, and a failed one is caught and treated as a miss
    or a no-op, never passed to the caller. */
module Cache {
  import opened Basics
  import opened Decimal
  import opened Records

  const EmployeeKeyPrefix: string := "employee:"
  const AllEmployeesKey: string := "employees:all"

  /** `CACHE_TTL_HOURS` (and the literal 1 hour used for the list), in seconds. */
  const CacheTtlHours: nat := 1
  const Ttl: nat := CacheTtlHours * 3600

  datatype CachedValue = Single(employee: Employee) | Listing(employees: seq<Employee>)

  datatype Entry = Entry(value: CachedValue, expiresAt: int)

  type Redis = map<string, Entry>

  /** The key of one record: `"employee:" + id`. */
  function EmployeeKey(id: Long): (k: string)
    ensures k != AllEmployeesKey
    ensures |EmployeeKeyPrefix| < |k| && k[..|EmployeeKeyPrefix|] == EmployeeKeyPrefix
  {
    var k := EmployeeKeyPrefix + LongToString(id);
    assert k[8] == ':' && AllEmployeesKey[8] == 's';
    k
  }

  /** Distinct ids have distinct keys. */
  lemma EmployeeKeyInjective(a: Long, b: Long)
    ensures EmployeeKey(a) == EmployeeKey(b) ==> a == b
  {
    if EmployeeKey(a) == EmployeeKey(b) {
      var n := |EmployeeKeyPrefix|;
      assert LongToString(a) == EmployeeKey(a)[n..];
      assert LongToString(b) == EmployeeKey(b)[n..];
      LongToStringInjective(a, b);
    }
  }

  /** The raw entry under a key, expired or not. */
  function Lookup(c: Redis, key: string): Option<Entry> {
    if key in c then Some(c[key]) else None
  }

  /** Redis GET at time `now`: the value, unless absent or expired. */
  function Get(c: Redis, key: string, now: int): (r: Option<CachedValue>)
    ensures r.Some? <==> key in c && now < c[key].expiresAt
    ensures r.Some? ==> r.value == c[key].value
  {
    if key in c && now < c[key].expiresAt then Some(c[key].value) else None
  }

  /** SET with a one-hour expiry. */
  function Set(c: Redis, key: string, v: CachedValue, now: int): Redis {
    c[key := Entry(v, now + Ttl)]
  }

  /** `getCachedEmployee`: the cached record when the key holds one and has
      not expired; null on a miss, on anything that is not a record, and
      when Redis fails. */
  function GetCachedEmployee(c: Redis, id: Long, now: int, ok: bool): (r: Option<Employee>)
    ensures !ok ==> r == None
    ensures ok ==> match Get(c, EmployeeKey(id), now)
                   case Some(Single(e)) => r == Some(e)
                   case _ => r == None
  {
    if !ok then None
    else match Get(c, EmployeeKey(id), now)
      case Some(Single(e)) => Some(e)
      case _ => None
  }

  /** `evictAllEmployees`: DEL `employees:all`; nothing else changes. */
  function EvictAllEmployees(c: Redis, ok: bool): (r: Redis)
    ensures !ok ==> r == c
    ensures ok ==> forall t :: GetCachedAllEmployees(r, t, true) == []
    ensures forall k :: k != AllEmployeesKey ==> Lookup(r, k) == Lookup(c, k)
  {
    if ok then c - {AllEmployeesKey} else c
  }

  /** `updateAllEmployeesCache`: only evicts the list. */
  function UpdateAllEmployeesCache(c: Redis, ok: bool): (r: Redis)
    ensures ok ==> forall t :: GetCachedAllEmployees(r, t, true) == []
    ensures forall k :: k != AllEmployeesKey ==> Lookup(r, k) == Lookup(c, k)
  {
    EvictAllEmployees(c, ok)
  }

  /** `cacheEmployee`: SET the record for one hour, then evict the list. The
      two steps share one try block, so a failed SET skips the eviction. */
  function CacheEmployee(c: Redis, id: Long, e: Employee, now: int, setOk: bool, evictOk: bool): (r: Redis)
    ensures !setOk ==> r == c
    ensures setOk ==> forall t :: now <= t < now + Ttl ==> GetCachedEmployee(r, id, t, true) == Some(e)
    ensures setOk ==> forall t :: now + Ttl <= t ==> GetCachedEmployee(r, id, t, true) == None
    ensures setOk && evictOk ==> forall t :: GetCachedAllEmployees(r, t, true) == []
    ensures setOk && !evictOk ==> Lookup(r, AllEmployeesKey) == Lookup(c, AllEmployeesKey)
    ensures forall k :: k != EmployeeKey(id) && k != AllEmployeesKey ==> Lookup(r, k) == Lookup(c, k)
  {
    if !setOk then c
    else UpdateAllEmployeesCache(Set(c, EmployeeKey(id), Single(e), now), evictOk)
  }

  /** `getCachedAllEmployees`: the cached list when present and unexpired,
      otherwise the empty list (also on a Redis failure). */
  function GetCachedAllEmployees(c: Redis, now: int, ok: bool): (r: seq<Employee>)
    ensures !ok ==> r == []
    ensures ok ==> match Get(c, AllEmployeesKey, now)
                   case Some(Listing(es)) => r == es
                   case _ => r == []
  {
    if !ok then []
    else match Get(c, AllEmployeesKey, now)
      case Some(Listing(es)) => es
      case _ => []
  }

  /** `cacheAllEmployees`: an empty list is refused and leaves the cache as it
      was; a non-empty one is stored under `employees:all` for one hour. */
  function CacheAllEmployees(c: Redis, es: seq<Employee>, now: int, ok: bool): (r: Redis)
    ensures es == [] || !ok ==> r == c
    ensures es != [] && ok ==>
              && (forall t :: now <= t < now + Ttl ==> GetCachedAllEmployees(r, t, true) == es)
              && (forall t :: now + Ttl <= t ==> GetCachedAllEmployees(r, t, true) == [])
    ensures forall k :: k != AllEmployeesKey ==> Lookup(r, k) == Lookup(c, k)
  {
    if es == [] then c
    else if !ok then c
    else Set(c, AllEmployeesKey, Listing(es), now)
  }

  /** `evictEmployee`: DEL the record's key, then always evict the list,
      whether or not the record key existed; a failed DEL skips the rest. */
  function EvictEmployee(c: Redis, id: Long, deleteOk: bool, evictOk: bool): (r: Redis)
    ensures !deleteOk ==> r == c
    ensures deleteOk ==> forall t :: GetCachedEmployee(r, id, t, true) == None
    ensures deleteOk && evictOk ==> forall t :: GetCachedAllEmployees(r, t, true) == []
    ensures deleteOk && !evictOk ==> Lookup(r, AllEmployeesKey) == Lookup(c, AllEmployeesKey)
    ensures forall k :: k != EmployeeKey(id) && k != AllEmployeesKey ==> Lookup(r, k) == Lookup(c, k)
  {
    if !deleteOk then c
    else EvictAllEmployees(c - {EmployeeKey(id)}, evictOk)
  }

  /** Putting or evicting one record leaves every other record's lookup as it was. */
  lemma OtherRecordsUntouched(c: Redis, id: Long, e: Employee, es: seq<Employee>, now: int,
                              a: bool, b: bool, other: Long, t: int, ok: bool)
    requires other != id
    ensures GetCachedEmployee(CacheEmployee(c, id, e, now, a, b), other, t, ok) == GetCachedEmployee(c, other, t, ok)
    ensures GetCachedEmployee(EvictEmployee(c, id, a, b), other, t, ok) == GetCachedEmployee(c, other, t, ok)
    ensures GetCachedEmployee(EvictAllEmployees(c, a), other, t, ok) == GetCachedEmployee(c, other, t, ok)
    ensures GetCachedEmployee(CacheAllEmployees(c, es, now, a), other, t, ok) == GetCachedEmployee(c, other, t, ok)
  {
    EmployeeKeyInjective(id, other);
    var k := EmployeeKey(other);
    assert Lookup(CacheEmployee(c, id, e, now, a, b), k) == Lookup(c, k);
    assert Lookup(EvictEmployee(c, id, a, b), k) == Lookup(c, k);
    assert Lookup(EvictAllEmployees(c, a), k) == Lookup(c, k);
    assert Lookup(CacheAllEmployees(c, es, now, a), k) == Lookup(c, k);
  }
}

=== FILE: command.dfy ===
/** The write commands the gateway publishes and the domain service decodes:
    a flat text line `OPERATION:field,field,...` with no escaping.

    The gateway formats them with `String.format` (`CREATE:%s,%s,%f,%s`,
    `UPDATE:%d,%s,%s,%f,%s`, `DELETE:%d`); the listener splits the message
    on ':' and the payload on ',' and reads fields by position. */
module Command {
  import opened Basics
  import opened Decimal
  import opened Text
  import opened Records

  datatype Command =
    | Create(info: Fields)
    | Update(id: Long, info: Fields)
    | Delete(id: Long)

  /** Which Java exception decoding stops at. */
  datatype DecodeError =
    | MissingPart  // ArrayIndexOutOfBoundsException: fewer pieces than read
    | BadNumber    // NumberFormatException from parseLong / parseDouble
    | BadDate      // DateTimeParseException from LocalDate.parse

  datatype Decoded =
    | Parsed(command: Command)
    | UnknownOperation(op: string)  // the switch falls through: nothing happens
    | Malformed(reason: DecodeError)

  function OperationName(c: Command): string {
    match c
    case Create(_) => "CREATE"
    case Update(_, _) => "UPDATE"
    case Delete(_) => "DELETE"
  }

  /** The four fields in message order; `%f` and `toString` print the salary
      and date tokens as they are. */
  function FieldTexts(f: Fields): seq<string> {
    [f.name, f.position, f.salary, f.hireDate]
  }

  /** The text after `OPERATION:`: the fields joined by ',' (after the id
      for UPDATE), or the id alone for DELETE. It is never empty, and it
      holds no ':' unless a field does. */
  function Payload(c: Command): (p: string)
    ensures p != ""
    ensures Encodable(c) ==> ':' !in p
  {
    match c
    case Create(f) =>
      var xs := FieldTexts(f);
      if NoneContains(xs, ':') then JoinAvoids(xs, ',', ':'); Join(xs, ',')
      else Join(xs, ',')
    case Update(id, f) =>
      var xs := [LongToString(id)] + FieldTexts(f);
      if Encodable(c) then UpdatePiecesAvoidDelimiters(id, f); JoinAvoids(xs, ',', ':'); Join(xs, ',')
      else Join(xs, ',')
    case Delete(id) => LongToString(id)
  }

  /** The message the controller publishes for `c`: the operation name, a
      ':', and a non-empty payload that, for an encodable command, holds no
      further ':' (so the listener's split sees exactly two parts). */
  function Encode(c: Command): (r: string)
    ensures var n := |OperationName(c)|;
            n < |r| && r[..n + 1] == OperationName(c) + ":" && r[n + 1..] != ""
    ensures Encodable(c) ==> ':' !in r[|OperationName(c)| + 1..]
  {
    var r := OperationName(c) + ":" + Payload(c);
    assert r[|OperationName(c)| + 1..] == Payload(c);
    r
  }

  /** `processMessage` up to the point where it calls the store. */
  function Decode(msg: string): (r: Decoded)
    ensures r.Parsed? ==>
              var parts := Split(msg, ':');
              2 <= |parts| && parts[0] == OperationName(r.command)
    ensures r.UnknownOperation? ==>
              var parts := Split(msg, ':');
              1 <= |parts| && parts[0] == r.op
              && r.op != "CREATE" && r.op != "UPDATE" && r.op != "DELETE"
  {
    DecodeParts(Split(msg, ':'))
  }

  /** The switch on `parts[0]` of `message.split(":")`: a known operation
      without a second part throws, an unknown one is passed over. */
  function DecodeParts(parts: seq<string>): (r: Decoded)
    ensures r.Parsed? ==> 2 <= |parts| && parts[0] == OperationName(r.command)
    ensures r.UnknownOperation? <==>
              1 <= |parts| && parts[0] != "CREATE" && parts[0] != "UPDATE" && parts[0] != "DELETE"
    ensures r.UnknownOperation? ==> r.op == parts[0]
    ensures |parts| < 2 && !r.UnknownOperation? ==> r == Malformed(MissingPart)
    ensures 2 <= |parts| && parts[0] == "CREATE" ==> r == DecodeCreate(Split(parts[1], ','))
    ensures 2 <= |parts| && parts[0] == "UPDATE" ==> r == DecodeUpdate(Split(parts[1], ','))
    ensures 2 <= |parts| && parts[0] == "DELETE" ==>
              && (r.Parsed? <==> ParseLong(parts[1]).Some?)
              && (r.Parsed? ==> r.command == Delete(ParseLong(parts[1]).value))
              && (!r.Parsed? ==> r == Malformed(BadNumber))
  {
    if |parts| == 0 then Malformed(MissingPart)
    else if parts[0] == "CREATE" then
      if |parts| < 2 then Malformed(MissingPart) else DecodeCreate(Split(parts[1], ','))
    else if parts[0] == "UPDATE" then
      if |parts| < 2 then Malformed(MissingPart) else DecodeUpdate(Split(parts[1], ','))
    else if parts[0] == "DELETE" then
      if |parts| < 2 then Malformed(MissingPart)
      else match ParseLong(parts[1])
        case None => Malformed(BadNumber)
        case Some(id) => Parsed(Delete(id))
    else UnknownOperation(parts[0])
  }

  /** The CREATE branch: pieces 0..3 are name, position, salary, hire date;
      later pieces are ignored. */
  function DecodeCreate(p: seq<string>): (r: Decoded)
    ensures !r.UnknownOperation?
    ensures r.Parsed? ==> r.command.Create?
    ensures r.Parsed? <==> 4 <= |p| && IsSalaryText(p[2]) && IsDateText(p[3])
    ensures r.Parsed? ==> FieldTexts(r.command.info) == p[..4]
  {
    if |p| < 3 then Malformed(MissingPart)
    else match ParseSalary(p[2])
      case None => Malformed(BadNumber)
      case Some(salary) =>
        if |p| < 4 then Malformed(MissingPart)
        else match ParseDate(p[3])
          case None => Malformed(BadDate)
          case Some(date) => Parsed(Create(Fields(p[0], p[1], salary, date)))
  }

  /** The UPDATE branch: piece 0 is the id, pieces 1..4 the fields. */
  function DecodeUpdate(p: seq<string>): (r: Decoded)
    ensures !r.UnknownOperation?
    ensures r.Parsed? ==> r.command.Update?
    ensures r.Parsed? <==> 5 <= |p| && ParseLong(p[0]).Some? && IsSalaryText(p[3]) && IsDateText(p[4])
    ensures r.Parsed? ==> Some(r.command.id) == ParseLong(p[0])
                          && FieldTexts(r.command.info) == p[1..5]
  {
    if |p| < 1 then Malformed(MissingPart)
    else match ParseLong(p[0])
      case None => Malformed(BadNumber)
      case Some(id) =>
        if |p| < 4 then Malformed(MissingPart)
        else match ParseSalary(p[3])
          case None => Malformed(BadNumber)
          case Some(salary) =>
            if |p| < 5 then Malformed(MissingPart)
            else match ParseDate(p[4])
              case None => Malformed(BadDate)
              case Some(date) => Parsed(Update(id, Fields(p[1], p[2], salary, date)))
  }

  /** No field holds either delimiter. */
  predicate Encodable(c: Command) {
    match c
    case Create(f) => NoneContains(FieldTexts(f), ',') && NoneContains(FieldTexts(f), ':')
    case Update(_, f) => NoneContains(FieldTexts(f), ',') && NoneContains(FieldTexts(f), ':')
    case Delete(_) => true
  }

  /** A message `op:payload` whose operation and payload hold no ':' splits
      into exactly those two parts. */
  lemma SplitMessage(op: string, payload: string)
    requires op != "" && payload != ""
    requires ':' !in op && ':' !in payload
    ensures Split(op + ":" + payload, ':') == [op, payload]
  {
    var xs := [op, payload];
    assert NoneContains(xs, ':');
    assert Join(xs, ':') == op + ":" + payload by {
      assert Join(xs[1..], ':') == payload;
    }
    SplitJoin(xs, ':');
  }

  /** Joined fields, with no field holding ',' and the last one non-empty,
      split back into the fields and hold no ':' when no field does. */
  lemma PayloadRoundTrip(xs: seq<string>)
    requires 1 <= |xs| && xs[|xs| - 1] != ""
    requires NoneContains(xs, ',') && NoneContains(xs, ':')
    ensures Split(Join(xs, ','), ',') == xs
    ensures ':' !in Join(xs, ',') && Join(xs, ',') != ""
  {
    SplitJoin(xs, ',');
    JoinAvoids(xs, ',', ':');
  }

  /** Decoding what the controller encodes gives back the command, provided
      no field contains ',' or ':'. */
  lemma DecodeEncode(c: Command)
    requires Encodable(c)
    ensures Decode(Encode(c)) == Parsed(c)
  {
    match c
    case Create(f) => DecodeEncodeCreate(f);
    case Update(id, f) => DecodeEncodeUpdate(id, f);
    case Delete(id) => DecodeEncodeDelete(id);
  }

  lemma DecodeEncodeCreate(f: Fields)
    requires Encodable(Create(f))
    ensures Decode(Encode(Create(f))) == Parsed(Create(f))
  {
    var xs := FieldTexts(f);
    var payload := Join(xs, ',');
    PayloadRoundTrip(xs);
    CreatePayloadDecodes(payload);
    EncodeCreateText(f);
    var r := DecodeCreate(xs);
    assert r.Parsed? && FieldTexts(r.command.info) == xs;
  }

  lemma DecodeEncodeUpdate(id: Long, f: Fields)
    requires Encodable(Update(id, f))
    ensures Decode(Encode(Update(id, f))) == Parsed(Update(id, f))
  {
    var xs := [LongToString(id)] + FieldTexts(f);
    UpdatePiecesAvoidDelimiters(id, f);
    var payload := Join(xs, ',');
    PayloadRoundTrip(xs);
    UpdatePayloadDecodes(payload);
    EncodeUpdateText(id, f);
    ParseLongRoundTrip(id);
    var r := DecodeUpdate(xs);
    assert xs[1..5] == FieldTexts(f);
    assert r.Parsed? && FieldTexts(r.command.info) == FieldTexts(f);
  }

  /** The text of a CREATE message. */
  lemma EncodeCreateText(f: Fields)
    ensures Encode(Create(f)) == "CREATE:" + Join(FieldTexts(f), ',')
  {
    assert Payload(Create(f)) == Join(FieldTexts(f), ',');
  }

  /** The text of an UPDATE message. */
  lemma EncodeUpdateText(id: Long, f: Fields)
    ensures Encode(Update(id, f)) == "UPDATE:" + Join([LongToString(id)] + FieldTexts(f), ',')
  {
    assert Payload(Update(id, f)) == Join([LongToString(id)] + FieldTexts(f), ',');
  }

  /** The pieces of an UPDATE payload hold neither delimiter. */
  lemma UpdatePiecesAvoidDelimiters(id: Long, f: Fields)
    requires Encodable(Update(id, f))
    ensures var xs := [LongToString(id)] + FieldTexts(f);
            NoneContains(xs, ',') && NoneContains(xs, ':') && xs[|xs| - 1] != ""
  {
    var xs := [LongToString(id)] + FieldTexts(f);
    assert xs[1..] == FieldTexts(f);
  }

  /** An UPDATE message decodes as its payload's pieces. */
  lemma UpdatePayloadDecodes(payload: string)
    requires payload != "" && ':' !in payload
    ensures Decode("UPDATE:" + payload) == DecodeUpdate(Split(payload, ','))
  {
    SplitMessage("UPDATE", payload);
    assert "UPDATE:" + payload == "UPDATE" + ":" + payload;
  }

  lemma DecodeEncodeDelete(id: Long)
    ensures Decode(Encode(Delete(id))) == Parsed(Delete(id))
  {
    var msg := Encode(Delete(id));
    SplitMessage("DELETE", LongToString(id));
    assert msg == "DELETE" + ":" + LongToString(id);
    assert Decode(msg) == DecodeParts(["DELETE", LongToString(id)]);
    ParseLongRoundTrip(id);
  }

  /** A ',' inside the name shifts every later field one place: the position
      is read as the salary and the salary's text as the hire date. A salary
      always prints with a decimal point and a date never has one, so the
      listener always throws and nothing is written: at the salary when the
      position does not read as one, otherwise at the date. */
  lemma CommaInNameShiftsFields(first: string, second: string, f: Fields)
    requires ',' !in first && ',' !in second && ':' !in first && ':' !in second
    requires NoneContains(FieldTexts(f), ',') && NoneContains(FieldTexts(f), ':')
    ensures var sent := Create(f.(name := first + "," + second));
            Decode(Encode(sent)) == Malformed(if IsSalaryText(f.position) then BadDate else BadNumber)
  {
    var sent := Create(f.(name := first + "," + second));
    var shifted := [first, second] + FieldTexts(f)[1..];
    ShiftedPayload(first, second, f);
    var payload := Join(shifted, ',');
    PayloadRoundTrip(shifted);
    CreatePayloadDecodes(payload);
    EncodeCreateText(sent.info);
    assert shifted[2] == f.position && shifted[3] == f.salary;
    SalaryIsNeverADate(f.salary);
  }

  /** Every field of a decoded CREATE or UPDATE is a piece of a ','-split,
      so no message decodes to one whose fields hold ','. */
  lemma DecodedFieldsHoldNoComma(msg: string)
    ensures var r := Decode(msg);
            r.Parsed? && !r.command.Delete? ==> NoneContains(FieldTexts(r.command.info), ',')
  {
    var parts := Split(msg, ':');
    var r := Decode(msg);
    if r.Parsed? && !r.command.Delete? {
      var p := Split(parts[1], ',');
      if r.command.Create? {
        assert r == DecodeCreate(p);
        assert FieldTexts(r.command.info) == p[..4];
      } else {
        assert r == DecodeUpdate(p);
        assert FieldTexts(r.command.info) == p[1..5];
      }
    }
  }

  /** Hence a CREATE or UPDATE with ',' in any field, whatever else it
      holds, never comes back from its own message, nor from any other:
      the listener never writes the employee that was sent. */
  lemma CommaInFieldNeverRoundTrips(c: Command, msg: string)
    requires !c.Delete? && !NoneContains(FieldTexts(c.info), ',')
    ensures Decode(Encode(c)) != Parsed(c)
    ensures Decode(msg) != Parsed(c)
  {
    DecodedFieldsHoldNoComma(Encode(c));
    DecodedFieldsHoldNoComma(msg);
  }

  /** The payload of a CREATE whose name holds one ',' is the join of the
      name's two halves followed by the other fields. */
  lemma ShiftedPayload(first: string, second: string, f: Fields)
    requires ',' !in first && ',' !in second && ':' !in first && ':' !in second
    requires NoneContains(FieldTexts(f), ',') && NoneContains(FieldTexts(f), ':')
    ensures var shifted := [first, second] + FieldTexts(f)[1..];
            && Join(FieldTexts(f.(name := first + "," + second)), ',') == Join(shifted, ',')
            && NoneContains(shifted, ',') && NoneContains(shifted, ':')
            && shifted[|shifted| - 1] != ""
  {
    var tail := FieldTexts(f)[1..];
    assert FieldTexts(f.(name := first + "," + second)) == [first + [','] + second] + tail;
    JoinSplitsPiece(first, second, tail, ',');
  }

  /** A ':' inside the name cuts the message short: the listener takes only
      the part of the name before the ':' as the whole CREATE payload and
      reads the fields from its ','-separated pieces. */
  lemma ColonInNameCutsPayload(first: string, second: string, f: Fields)
    requires ':' !in first && ':' !in second
    requires NoneContains(FieldTexts(f), ':')
    ensures Decode(Encode(Create(f.(name := first + ":" + second)))) == DecodeCreate(Split(first, ','))
  {
    var sent := Create(f.(name := first + ":" + second));
    var xs := FieldTexts(sent.info);
    var rest := second + "," + Join(xs[1..], ',');
    assert Join(xs, ',') == first + ":" + rest;
    assert ':' !in rest by {
      assert NoneContains(xs[1..], ':') by {
        assert xs[1..] == FieldTexts(f)[1..];
      }
      JoinAvoids(xs[1..], ',', ':');
    }
    var msg := Encode(sent);
    assert msg == "CREATE" + ":" + first + ":" + rest;
    SplitThreeParts("CREATE", first, rest);
    assert Decode(msg) == DecodeParts(["CREATE", first, rest]);
  }

  /** When the part of the name before the ':' has fewer than four
      ','-separated pieces the listener throws, before the salary when it
      has fewer than three. */
  lemma ColonInNameIsMalformed(first: string, second: string, f: Fields)
    requires ':' !in first && ':' !in second
    requires NoneContains(FieldTexts(f), ':')
    requires |Split(first, ',')| < 4
    ensures Decode(Encode(Create(f.(name := first + ":" + second)))).Malformed?
    ensures |Split(first, ',')| < 3 ==>
              Decode(Encode(Create(f.(name := first + ":" + second)))) == Malformed(MissingPart)
  {
    ColonInNameCutsPayload(first, second, f);
  }

  /** But when the part before the ':' itself reads as four fields, the
      listener writes an employee made of them, and the rest of the name and
      every field that was sent are lost. */
  lemma ColonAfterFourFieldsWritesThem(a: string, b: string, s: Salary, d: Date, second: string, f: Fields)
    requires NoneContains([a, b, s, d], ',') && NoneContains([a, b, s, d], ':')
    requires ':' !in second && NoneContains(FieldTexts(f), ':')
    ensures var sent := Create(f.(name := Join([a, b, s, d], ',') + ":" + second));
            && Decode(Encode(sent)) == Parsed(Create(Fields(a, b, s, d)))
            && Decode(Encode(sent)) != Parsed(sent)
  {
    var xs := [a, b, s, d];
    var first := Join(xs, ',');
    PayloadRoundTrip(xs);
    ColonInNameCutsPayload(first, second, f);
    var name := first + ":" + second;
    assert name[|first|] == ':';
    assert ':' !in a;
  }

  /** `a:b:c` with no ':' in any part and `c` non-empty splits into the three parts. */
  lemma SplitThreeParts(a: string, b: string, c: string)
    requires ':' !in a && ':' !in b && ':' !in c && c != ""
    ensures Split(a + ":" + b + ":" + c, ':') == [a, b, c]
  {
    var xs := [a, b, c];
    assert NoneContains(xs, ':');
    assert Join(xs, ':') == a + ":" + b + ":" + c by {
      assert xs[1..][1..] == [c];
      assert Join(xs[1..], ':') == b + ":" + c;
    }
    SplitJoin(xs, ':');
  }

  /** A CREATE with fewer than four fields never decodes to a command. */
  lemma TooFewCreateFieldsIsMalformed(xs: seq<string>)
    requires 1 <= |xs| < 4 && xs[|xs| - 1] != ""
    requires NoneContains(xs, ',') && NoneContains(xs, ':')
    ensures Decode("CREATE:" + Join(xs, ',')).Malformed?
  {
    var payload := Join(xs, ',');
    PayloadRoundTrip(xs);
    CreatePayloadDecodes(payload);
    assert !DecodeCreate(xs).Parsed?;
  }

  /** A CREATE message decodes as its payload's pieces. */
  lemma CreatePayloadDecodes(payload: string)
    requires payload != "" && ':' !in payload
    ensures Decode("CREATE:" + payload) == DecodeCreate(Split(payload, ','))
  {
    SplitMessage("CREATE", payload);
    assert "CREATE:" + payload == "CREATE" + ":" + payload;
  }

  /** The operation is the text before the first ':'; anything but CREATE,
      UPDATE and DELETE is passed over. */
  lemma UnknownOperationIsIgnored(op: string, rest: string)
    requires op != "" && ':' !in op
    requires op != "CREATE" && op != "UPDATE" && op != "DELETE"
    ensures Decode(op + ":" + rest) == UnknownOperation(op)
  {
    SplitKeepsFirstPiece(op, rest, ':');
    assert op + ":" + rest == op + [':'] + rest;
  }
}

=== FILE: decimal.dfy ===
/** Decimal rendering and parsing of Java `long` values: what `%d` / string
    concatenation produce for a `Long`, and what `Long.parseLong` accepts. */
module Decimal {
  import opened Basics

  const MinLong: int := -0x8000_0000_0000_0000
  const MaxLong: int := 0x7FFF_FFFF_FFFF_FFFF

  /** A Java `long` (the type of every employee id). */
  type Long = x: int | MinLong <= x <= MaxLong

  predicate IsDigit(c: char) {
    '0' <= c <= '9'
  }

  predicate AllDigits(s: string) {
    forall i :: 0 <= i < |s| ==> IsDigit(s[i])
  }

  function DigitChar(d: nat): (c: char)
    requires d < 10
    ensures IsDigit(c)
  {
    ('0' as int + d) as char
  }

  function DigitValue(c: char): (d: nat)
    requires IsDigit(c)
    ensures d < 10
  {
    c as int - '0' as int
  }

  /** Shortest decimal digits of `n`, most significant first. */
  function NatDigits(n: nat): (s: string)
    ensures 1 <= |s|
    ensures AllDigits(s)
    decreases n
  {
    if n < 10 then [DigitChar(n)] else NatDigits(n / 10) + [DigitChar(n % 10)]
  }

  /** Value of a digit string read as a base-10 numeral (the empty string reads as 0). */
  function DigitsValue(s: string): nat
    requires AllDigits(s)
  {
    if s == [] then 0 else DigitsValue(s[..|s| - 1]) * 10 + DigitValue(s[|s| - 1])
  }

  /** `Long.toString(n)`: an optional minus sign followed by the digits of |n|. */
  function LongToString(n: int): (s: string)
    ensures 1 <= |s|
    ensures n >= 0 ==> AllDigits(s)
    ensures n < 0 ==> s[0] == '-' && AllDigits(s[1..])
    ensures ':' !in s && ',' !in s
  {
    if n < 0 then "-" + NatDigits(-n) else NatDigits(n)
  }

  /** The grammar `Long.parseLong` accepts: an optional '+' or '-' followed
      by at least one decimal digit. */
  predicate IsLongText(s: string) {
    if 1 <= |s| && (s[0] == '-' || s[0] == '+') then 2 <= |s| && AllDigits(s[1..])
    else 1 <= |s| && AllDigits(s)
  }

  /** The value such a text denotes, before any range check. */
  function LongTextValue(s: string): int
    requires IsLongText(s)
  {
    if s[0] == '-' then -(DigitsValue(s[1..]) as int)
    else if s[0] == '+' then DigitsValue(s[1..])
    else DigitsValue(s)
  }

  /** `Long.parseLong(s)`: an optional '+' or '-', then at least one digit,
      and the value must fit in a `long`; otherwise NumberFormatException (None). */
  function ParseLong(s: string): (r: Option<Long>)
    ensures r.Some? ==> 1 <= |s|
    ensures r.Some? && s[0] != '-' ==> r.value >= 0
    ensures AllDigits(s) && s != [] && DigitsValue(s) <= MaxLong ==> r == Some(DigitsValue(s))
  {
    if |s| == 0 then None
    else if s[0] == '-' || s[0] == '+' then
      var body := s[1..];
      if |body| == 0 || !AllDigits(body) then None
      else
        var v: int := if s[0] == '-' then -(DigitsValue(body) as int) else DigitsValue(body);
        if MinLong <= v <= MaxLong then Some(v) else None
    else if !AllDigits(s) then None
    else if DigitsValue(s) <= MaxLong then Some(DigitsValue(s))
    else None
  }

  /** `parseLong` accepts exactly the texts of its grammar whose value fits
      in a `long`, and gives that value; everything else is rejected. */
  lemma ParseLongGrammar(s: string)
    ensures ParseLong(s).Some? <==> IsLongText(s) && MinLong <= LongTextValue(s) <= MaxLong
    ensures ParseLong(s).Some? ==> ParseLong(s).value == LongTextValue(s)
  {
  }

  lemma {:induction false} DigitsRoundTrip(n: nat)
    ensures DigitsValue(NatDigits(n)) == n
    decreases n
  {
    if n >= 10 {
      var s := NatDigits(n);
      assert s[..|s| - 1] == NatDigits(n / 10);
      DigitsRoundTrip(n / 10);
    }
  }

  /** Parsing what `Long.toString` printed gives the number back. */
  lemma ParseLongRoundTrip(n: Long)
    ensures ParseLong(LongToString(n)) == Some(n)
  {
    if n < 0 {
      var s := LongToString(n);
      var m: nat := -(n as int);
      assert s[1..] == NatDigits(m);
      DigitsRoundTrip(m);
    } else {
      DigitsRoundTrip(n);
    }
  }

  /** Distinct ids print differently. */
  lemma LongToStringInjective(a: Long, b: Long)
    ensures LongToString(a) == LongToString(b) ==> a == b
  {
    ParseLongRoundTrip(a);
    ParseLongRoundTrip(b);
  }
}

=== FILE: gateway.dfy ===
/** The whole system as one explicit state, and the gateway controller
    (`EmployeeGatewayController`) as transitions on it.

    Reads go through the cache to the store over gRPC; writes publish a text
    command to the queue, invalidate the cache and answer 202 at once. The
    queue is drained, one message at a time in FIFO order, by the domain
    service's listener, which is the only writer of the store. */
module Gateway {
  import opened Basics
  import opened Decimal
  import opened Records
  import opened Repository
  import opened Command
  import opened Cache
  import GrpcClient
  import Listener

  datatype System = System(
    cache: Redis,
    queue: seq<string>,  // published messages not yet consumed, oldest first
    store: Store,
    clock: nat)          // seconds; the time every cache call is made at

  /** Which external services answer during one request: Redis, the gRPC
      server, the message broker. */
  datatype Env = Env(redisUp: bool, rpcUp: bool, brokerUp: bool)

  const Healthy: Env := Env(true, true, true)

  /** An HTTP status code and an optional body. */
  datatype Response<T> = Response(status: int, body: Option<T>)

  const CreateAccepted: string := "Create employee request accepted"
  const UpdateAccepted: string := "Update employee request accepted"
  const DeleteAccepted: string := "Delete employee request accepted"

  /** `RabbitMQSender.sendMessage`: the message is queued, or on a broker
      failure the error is logged and swallowed and the message is lost. */
  function Publish(queue: seq<string>, msg: string, up: bool): (r: seq<string>)
    ensures up ==> r == queue + [msg]
    ensures !up ==> r == queue
  {
    if up then queue + [msg] else queue
  }

  /** The store half of a read that missed the cache
      (`employeeGrpcClient.getEmployeeById`): the stored row or nothing, or a
      failure when the gRPC server cannot be reached. */
  function FetchEmployee(sys: System, id: Long, env: Env): (r: Result<Option<Employee>, Fault>)
    ensures r.Ok? <==> env.rpcUp
    ensures env.rpcUp ==> r == Ok(FindById(sys.store, id))
  {
    if env.rpcUp then GrpcClient.GetEmployeeById(sys.store, id) else Err(TransportFailed)
  }

  /** The cache half of that read: what was fetched is answered, and a found
      record is cached for the hour starting when this step runs, which may
      be after other requests have changed the store since the fetch. */
  function AnswerFetched(sys: System, id: Long, fetched: Result<Option<Employee>, Fault>, env: Env)
    : (r: (System, Response<Employee>))
    ensures r.0.store == sys.store && r.0.queue == sys.queue && r.0.clock == sys.clock
    ensures fetched.Err? ==> r == (sys, Response(500, None))
    ensures fetched == Ok(None) ==> r == (sys, Response(404, None))
    ensures fetched.Ok? && fetched.value.Some? ==>
              && r.1 == Response(200, fetched.value)
              && (env.redisUp ==>
                    && (forall t :: sys.clock <= t < sys.clock + Ttl ==>
                          GetCachedEmployee(r.0.cache, id, t, true) == fetched.value)
                    && (forall t :: sys.clock + Ttl <= t ==> GetCachedEmployee(r.0.cache, id, t, true) == None)
                    && (forall t :: GetCachedAllEmployees(r.0.cache, t, true) == [])
                    && forall k :: k != EmployeeKey(id) && k != AllEmployeesKey ==>
                         Lookup(r.0.cache, k) == Lookup(sys.cache, k))
              && (!env.redisUp ==> r.0.cache == sys.cache)
  {
    match fetched
    case Err(_) => (sys, Response(500, None))
    case Ok(None) => (sys, Response(404, None))
    case Ok(Some(e)) =>
      var cache := CacheEmployee(sys.cache, id, e, sys.clock, env.redisUp, env.redisUp);
      (sys.(cache := cache), Response(200, Some(e)))
  }

  /** `GET /api/employees/{id}`: a cache hit is answered from the cache; a
      miss asks the store, caches a found record and answers 200, and answers
      404 without caching anything when there is none. A failed gRPC call
      propagates (500). The read path never writes the store or the queue.
      Here the two halves of a miss run back to back; see
      `Scenarios.ReadRacingUpdateCachesStaleRow` for a write between them. */
  function GetEmployeeById(sys: System, id: Long, env: Env): (r: (System, Response<Employee>))
    ensures r.0.store == sys.store && r.0.queue == sys.queue && r.0.clock == sys.clock
    ensures var hit := GetCachedEmployee(sys.cache, id, sys.clock, env.redisUp);
            hit.Some? ==> r == (sys, Response(200, hit))
    ensures var hit := GetCachedEmployee(sys.cache, id, sys.clock, env.redisUp);
            hit.None? && !env.rpcUp ==> r == (sys, Response(500, None))
    ensures var hit := GetCachedEmployee(sys.cache, id, sys.clock, env.redisUp);
            hit.None? && env.rpcUp && id !in sys.store.rows ==> r == (sys, Response(404, None))
    ensures var hit := GetCachedEmployee(sys.cache, id, sys.clock, env.redisUp);
            hit.None? && env.rpcUp && id in sys.store.rows ==>
              && r.1 == Response(200, Some(sys.store.rows[id]))
              && (env.redisUp ==>
                    && GetCachedEmployee(r.0.cache, id, sys.clock, true) == Some(sys.store.rows[id])
                    && (forall t :: sys.clock <= t < sys.clock + Ttl ==>
                          GetCachedEmployee(r.0.cache, id, t, true) == Some(sys.store.rows[id]))
                    && (forall t :: sys.clock + Ttl <= t ==> GetCachedEmployee(r.0.cache, id, t, true) == None)
                    && (forall t :: GetCachedAllEmployees(r.0.cache, t, true) == [])
                    && forall k :: k != EmployeeKey(id) && k != AllEmployeesKey ==>
                         Lookup(r.0.cache, k) == Lookup(sys.cache, k))
              && (!env.redisUp ==> r.0.cache == sys.cache)
  {
    var hit := GetCachedEmployee(sys.cache, id, sys.clock, env.redisUp);
    if hit.Some? then (sys, Response(200, hit))
    else AnswerFetched(sys, id, FetchEmployee(sys, id, env), env)
  }

  /** `GET /api/employees`: a non-empty cached list is answered from the
      cache; otherwise the store's list is fetched, an empty one answers 204
      and caches nothing, a non-empty one is cached and answered 200. */
  function GetAllEmployees(sys: System, env: Env): (r: (System, Response<seq<Employee>>))
    ensures r.0.store == sys.store && r.0.queue == sys.queue && r.0.clock == sys.clock
    ensures var cached := GetCachedAllEmployees(sys.cache, sys.clock, env.redisUp);
            cached != [] ==> r == (sys, Response(200, Some(cached)))
    ensures var cached := GetCachedAllEmployees(sys.cache, sys.clock, env.redisUp);
            cached == [] && !env.rpcUp ==> r == (sys, Response(500, None))
    ensures var cached := GetCachedAllEmployees(sys.cache, sys.clock, env.redisUp);
            cached == [] && env.rpcUp && FindAll(sys.store) == [] ==> r == (sys, Response(204, None))
    ensures var cached := GetCachedAllEmployees(sys.cache, sys.clock, env.redisUp);
            cached == [] && env.rpcUp && FindAll(sys.store) != [] ==>
              && r.1 == Response(200, Some(FindAll(sys.store)))
              && (env.redisUp ==>
                    && (forall t :: sys.clock <= t < sys.clock + Ttl ==>
                          GetCachedAllEmployees(r.0.cache, t, true) == FindAll(sys.store))
                    && forall t :: sys.clock + Ttl <= t ==> GetCachedAllEmployees(r.0.cache, t, true) == [])
              && (!env.redisUp ==> r.0.cache == sys.cache)
              && (forall k :: k != AllEmployeesKey ==> Lookup(r.0.cache, k) == Lookup(sys.cache, k))
  {
    var cached := GetCachedAllEmployees(sys.cache, sys.clock, env.redisUp);
    if cached != [] then (sys, Response(200, Some(cached)))
    else if !env.rpcUp then (sys, Response(500, None))
    else
      match GrpcClient.GetAllEmployees(sys.store)
      case Err(_) => (sys, Response(500, None))
      case Ok(es) =>
        if es == [] then (sys, Response(204, None))
        else (sys.(cache := CacheAllEmployees(sys.cache, es, sys.clock, env.redisUp)), Response(200, Some(es)))
  }

  /** `POST /api/employees`: publish `CREATE:...`, evict only the list (the
      new id does not exist yet), answer 202 whatever the broker did. */
  function CreateEmployee(sys: System, f: Fields, env: Env): (r: (System, Response<string>))
    ensures r.1 == Response(202, Some(CreateAccepted))
    ensures r.0.queue == Publish(sys.queue, Encode(Create(f)), env.brokerUp)
    ensures r.0.store == sys.store && r.0.clock == sys.clock
    ensures env.redisUp ==> forall t :: GetCachedAllEmployees(r.0.cache, t, true) == []
    ensures !env.redisUp ==> r.0.cache == sys.cache
    ensures forall k :: k != AllEmployeesKey ==> Lookup(r.0.cache, k) == Lookup(sys.cache, k)
  {
    var queue := Publish(sys.queue, Encode(Create(f)), env.brokerUp);
    var cache := EvictAllEmployees(sys.cache, env.redisUp);
    (sys.(queue := queue, cache := cache), Response(202, Some(CreateAccepted)))
  }

  /** `PUT /api/employees/{id}`: publish `UPDATE:id,...`, evict the record
      and the list, answer 202 without waiting for the update to land. */
  function UpdateEmployee(sys: System, id: Long, f: Fields, env: Env): (r: (System, Response<string>))
    ensures r.1 == Response(202, Some(UpdateAccepted))
    ensures r.0.queue == Publish(sys.queue, Encode(Update(id, f)), env.brokerUp)
    ensures r.0.store == sys.store && r.0.clock == sys.clock
    ensures env.redisUp ==> forall t :: GetCachedEmployee(r.0.cache, id, t, true) == None
    ensures env.redisUp ==> forall t :: GetCachedAllEmployees(r.0.cache, t, true) == []
    ensures !env.redisUp ==> r.0.cache == sys.cache
    ensures forall k :: k != EmployeeKey(id) && k != AllEmployeesKey ==> Lookup(r.0.cache, k) == Lookup(sys.cache, k)
  {
    var queue := Publish(sys.queue, Encode(Update(id, f)), env.brokerUp);
    var cache := EvictEmployee(sys.cache, id, env.redisUp, env.redisUp);
    (sys.(queue := queue, cache := cache), Response(202, Some(UpdateAccepted)))
  }

  /** `DELETE /api/employees/{id}`: publish `DELETE:id`, evict the record and
      the list, answer 202. */
  function DeleteEmployee(sys: System, id: Long, env: Env): (r: (System, Response<string>))
    ensures r.1 == Response(202, Some(DeleteAccepted))
    ensures r.0.queue == Publish(sys.queue, Encode(Delete(id)), env.brokerUp)
    ensures r.0.store == sys.store && r.0.clock == sys.clock
    ensures env.redisUp ==> forall t :: GetCachedEmployee(r.0.cache, id, t, true) == None
    ensures env.redisUp ==> forall t :: GetCachedAllEmployees(r.0.cache, t, true) == []
    ensures !env.redisUp ==> r.0.cache == sys.cache
    ensures forall k :: k != EmployeeKey(id) && k != AllEmployeesKey ==> Lookup(r.0.cache, k) == Lookup(sys.cache, k)
  {
    var queue := Publish(sys.queue, Encode(Delete(id)), env.brokerUp);
    var cache := EvictEmployee(sys.cache, id, env.redisUp, env.redisUp);
    (sys.(queue := queue, cache := cache), Response(202, Some(DeleteAccepted)))
  }

  /** The listener takes the oldest queued message and applies it to the
      store; a message that fails to decode is dropped. The cache is not
      touched: nothing on the domain side knows about it. */
  function Deliver(sys: System): (r: System)
    ensures sys.queue == [] ==> r == sys
    ensures sys.queue != [] ==>
              && r.queue == sys.queue[1..]
              && r.store == Listener.ProcessMessage(sys.store, sys.queue[0])
    ensures r.cache == sys.cache && r.clock == sys.clock
    ensures Valid(sys.store) ==> Valid(r.store)
  {
    if sys.queue == [] then sys
    else sys.(queue := sys.queue[1..], store := Listener.ProcessMessage(sys.store, sys.queue[0]))
  }

  /** Time passes; nothing else changes. */
  function Advance(sys: System, seconds: nat): (r: System)
    ensures r.clock == sys.clock + seconds
    ensures r.cache == sys.cache && r.queue == sys.queue && r.store == sys.store
  {
    sys.(clock := sys.clock + seconds)
  }

  /** A cache hit answers without consulting the store: the answer and the
      cache afterwards are the same whatever the store holds and whether or
      not the gRPC server is reachable. */
  lemma CacheHitIgnoresStore(sys: System, id: Long, env: Env, other: Store, rpcUp: bool)
    requires GetCachedEmployee(sys.cache, id, sys.clock, env.redisUp).Some?
    ensures var here := GetEmployeeById(sys, id, env);
            var there := GetEmployeeById(sys.(store := other), id, env.(rpcUp := rpcUp));
            here.1 == there.1 && here.0.cache == there.0.cache
  {
  }
}

=== FILE: grpc_client.dfy ===
/** The gateway's blocking gRPC client (`EmployeeGrpcClient`). Each call is
    modelled as a direct application of the matching server handler to the
    store; transport failures are decided by the caller (see `Gateway`). */
module GrpcClient {
  import opened Basics
  import opened Records
  import opened Repository
  import opened GrpcServer

  /** `convertToDto`: copies id, name, position and salary and parses the
      hire date text with `LocalDate.parse`, which throws on bad text. */
  function ConvertToDto(resp: EmployeeResponse): (r: Option<Employee>)
    ensures r.Some? <==> IsDateText(resp.hireDate)
    ensures r.Some? ==> Render(r.value) == resp
  {
    match ParseDate(resp.hireDate)
    case None => None
    case Some(d) => Some(Employee(resp.id, Fields(resp.name, resp.position, resp.salary, d)))
  }

  /** What `getEmployeeById` makes of a `getEmployee` response: empty exactly
      for the default instance, otherwise the converted record. */
  function FromGetResponse(resp: EmployeeResponse): (r: Result<Option<Employee>, Fault>)
    ensures r == Ok(None) <==> resp == DefaultResponse
    ensures resp != DefaultResponse ==>
              match ConvertToDto(resp)
              case Some(e) => r == Ok(Some(e))
              case None => r == Err(ConversionFailed)
  {
    if resp == DefaultResponse then Ok(None)
    else match ConvertToDto(resp)
      case None => Err(ConversionFailed)
      case Some(e) => Ok(Some(e))
  }

  /** `getEmployeeById`, composed with the server: the client finds exactly
      the stored row, and an absent id as empty. A stored row never renders
      as the default instance, and its hire date text always parses back. */
  function GetEmployeeById(s: Store, id: int): (r: Result<Option<Employee>, Fault>)
    ensures r == Ok(FindById(s, id))
    ensures r.Ok? && (r.value.Some? <==> id in s.rows)
  {
    if id in s.rows then
      var e := s.rows[id];
      assert ConvertToDto(Render(e)) == Some(e);
      FromGetResponse(GetEmployee(s, id))
    else FromGetResponse(GetEmployee(s, id))
  }

  /** `createEmployee`: the server inserts, then the client reads the new row
      back by id (`orElseThrow` when it is missing). */
  function CreateEmployee(s: Store, f: Fields): (r: Result<(Store, Employee), Fault>)
    ensures r.Ok?
    ensures r.value.1 == Employee(s.nextId, f)
    ensures FindById(r.value.0, s.nextId) == Some(r.value.1)
    ensures forall id :: id != s.nextId ==> FindById(r.value.0, id) == FindById(s, id)
  {
    match GrpcServer.CreateEmployee(s, ToWire(f))
    case Err(e) => Err(e)
    case Ok(created) =>
      var (s', id) := created;
      match GetEmployeeById(s', id)
      case Err(e) => Err(e)
      case Ok(None) => Err(NoSuchElement)
      case Ok(Some(e)) => Ok((s', e))
  }

  /** `updateEmployee`: empty when the server reports failure, otherwise the
      row as re-read by id after the update. */
  function UpdateEmployee(s: Store, id: int, f: Fields): (r: Result<(Store, Option<Employee>), Fault>)
    ensures r.Ok?
    ensures id !in s.rows ==> r == Ok((s, None))
    ensures Valid(s) && id in s.rows ==>
              && r.value.1 == Some(Employee(id, f))
              && FindById(r.value.0, id) == Some(Employee(id, f))
              && (forall other :: other != id ==> FindById(r.value.0, other) == FindById(s, other))
  {
    match GrpcServer.UpdateEmployee(s, UpdateRequest(id, ToWire(f)))
    case Err(e) => Err(e)
    case Ok(answer) =>
      var (s', success) := answer;
      if success then
          match GetEmployeeById(s', id)
        case Err(e) => Err(e)
        case Ok(found) => Ok((s', found))
      else Ok((s', None))
  }

  /** `deleteEmployee`: the server's success flag, unchanged. */
  function DeleteEmployee(s: Store, id: int): (r: (Store, bool))
    ensures r.1 <==> id in s.rows
    ensures FindById(r.0, id) == None
    ensures !r.1 ==> r.0 == s
  {
    GrpcServer.DeleteEmployee(s, id)
  }

  /** Converts every response, failing as a whole if any one fails. */
  function ConvertAll(rs: seq<EmployeeResponse>): (r: Result<seq<Employee>, Fault>)
    ensures r.Ok? <==> forall i :: 0 <= i < |rs| ==> IsDateText(rs[i].hireDate)
    ensures r.Ok? ==> |r.value| == |rs|
    ensures r.Ok? ==> forall i :: 0 <= i < |rs| ==> ConvertToDto(rs[i]) == Some(r.value[i])
  {
    if rs == [] then Ok([])
    else
      match ConvertToDto(rs[0])
      case None => Err(ConversionFailed)
      case Some(e) =>
        match ConvertAll(rs[1..])
        case Err(x) => Err(x)
        case Ok(es) => Ok([e] + es)
  }

  /** `getAllEmployees`, composed with the server: the server's list
      converted, which gives back exactly `findAll`, same length and order. */
  function GetAllEmployees(s: Store): (r: Result<seq<Employee>, Fault>)
    ensures r == Ok(FindAll(s))
  {
    var rs := GrpcServer.GetAllEmployees(s);
    ConvertAllRendered(rs, FindAll(s));
    ConvertAll(rs)
  }

  /** Converting the responses rendered from rows gives back the rows. */
  lemma {:induction false} ConvertAllRendered(rs: seq<EmployeeResponse>, all: seq<Employee>)
    requires |rs| == |all| && forall i :: 0 <= i < |rs| ==> rs[i] == Render(all[i])
    ensures ConvertAll(rs) == Ok(all)
  {
    var r := ConvertAll(rs);
    forall i | 0 <= i < |rs| ensures IsDateText(rs[i].hireDate) {
      assert rs[i] == Render(all[i]);
    }
    assert r.Ok?;
    forall i | 0 <= i < |all| ensures r.value[i] == all[i] {
      assert ConvertToDto(rs[i]) == Some(r.value[i]);
      assert ConvertToDto(Render(all[i])) == Some(all[i]);
    }
    assert r.value == all;
  }
}

=== FILE: grpc_server.dfy ===
/** The domain service's gRPC handlers (`EmployeeServiceGrpcImpl`) as
    functions from a store and a request to a response and a new store.
    "Not found" on `getEmployee` is signalled by the protobuf default instance. */
module GrpcServer {
  import opened Basics
  import opened Records
  import opened Repository

  /** `EmployeeResponse`: the hire date travels as text. */
  datatype EmployeeResponse = EmployeeResponse(
    id: int, name: string, position: string, salary: Salary, hireDate: string)

  /** `EmployeeResponse.getDefaultInstance()`: every field at its protobuf default. */
  const DefaultResponse: EmployeeResponse := EmployeeResponse(0, "", "", ZeroSalary, "")

  /** The four fields of a create or update request, hire date as text. */
  datatype WireFields = WireFields(name: string, position: string, salary: Salary, hireDate: string)

  datatype UpdateRequest = UpdateRequest(id: int, fields: WireFields)

  /** The request fields with the hire date parsed by `LocalDate.parse`. */
  function ParseFields(w: WireFields): (r: Option<Fields>)
    ensures r.Some? <==> IsDateText(w.hireDate)
    ensures r.Some? ==> ToWire(r.value) == w
  {
    match ParseDate(w.hireDate)
    case None => None
    case Some(d) => Some(Fields(w.name, w.position, w.salary, d))
  }

  /** How a client puts `Fields` on the wire (`hireDate.toString()`). */
  function ToWire(f: Fields): WireFields {
    WireFields(f.name, f.position, f.salary, f.hireDate)
  }

  /** The response built from a stored row. */
  function Render(e: Employee): (r: EmployeeResponse)
    ensures r != DefaultResponse
  {
    EmployeeResponse(e.id, e.info.name, e.info.position, e.info.salary, e.info.hireDate)
  }

  /** `getEmployee`: the row's fields, or the default instance for an absent id. */
  function GetEmployee(s: Store, id: int): (r: EmployeeResponse)
    ensures r == DefaultResponse <==> id !in s.rows
    ensures id in s.rows ==> r.id == s.rows[id].id && r.name == s.rows[id].info.name
                             && r.position == s.rows[id].info.position
                             && r.salary == s.rows[id].info.salary
                             && r.hireDate == s.rows[id].info.hireDate
  {
    match FindById(s, id)
    case Some(e) => Render(e)
    case None => DefaultResponse
  }

  /** `createEmployee`: inserts a new row and answers with the id the store
      gave it; an unparsable hire date makes the handler throw. */
  function CreateEmployee(s: Store, req: WireFields): (r: Result<(Store, int), Fault>)
    ensures r.Ok? <==> IsDateText(req.hireDate)
    ensures r.Ok? ==> && r.value.1 == s.nextId
                      && ParseFields(req).Some?
                      && FindById(r.value.0, r.value.1) == Some(Employee(r.value.1, ParseFields(req).value))
                      && (forall id :: id != r.value.1 ==> FindById(r.value.0, id) == FindById(s, id))
                      && (Valid(s) ==> r.value.1 !in s.rows && Valid(r.value.0))
  {
    match ParseFields(req)
    case None => Err(HandlerThrew)
    case Some(f) => Ok(SaveNew(s, f))
  }

  /** `updateEmployee`: an existing row gets all four fields overwritten and
      the answer is success; an absent id answers failure and writes nothing.
      The hire date is parsed only once the row is found. */
  function UpdateEmployee(s: Store, req: UpdateRequest): (r: Result<(Store, bool), Fault>)
    ensures req.id !in s.rows ==> r == Ok((s, false))
    ensures req.id in s.rows && !IsDateText(req.fields.hireDate) ==> r == Err(HandlerThrew)
    ensures req.id in s.rows && IsDateText(req.fields.hireDate) ==> r.Ok? && r.value.1
    ensures Valid(s) && req.id in s.rows && IsDateText(req.fields.hireDate) ==>
              && r.Ok?
              && FindById(r.value.0, req.id) == Some(Employee(req.id, ParseFields(req.fields).value))
              && (forall id :: id != req.id ==> FindById(r.value.0, id) == FindById(s, id))
              && r.value.0.order == s.order
    ensures r.Ok? && Valid(s) ==> Valid(r.value.0)
  {
    match FindById(s, req.id)
    case None => Ok((s, false))
    case Some(row) =>
      match ParseFields(req.fields)
      case None => Err(HandlerThrew)
      case Some(f) => Ok((SaveWithId(s, Employee(row.id, f)), true))
  }

  /** `deleteEmployee`: removes an existing row and answers true; an absent
      id answers false and writes nothing. */
  function DeleteEmployee(s: Store, id: int): (r: (Store, bool))
    ensures r.1 <==> id in s.rows
    ensures FindById(r.0, id) == None
    ensures forall other :: other != id ==> FindById(r.0, other) == FindById(s, other)
    ensures !r.1 ==> r.0 == s
    ensures Valid(s) ==> Valid(r.0)
  {
    if id in s.rows then (DeleteById(s, id), true) else (s, false)
  }

  /** `getAllEmployees`: one response per row, in `findAll` order. */
  function GetAllEmployees(s: Store): (r: seq<EmployeeResponse>)
    ensures |r| == |FindAll(s)|
    ensures forall i :: 0 <= i < |r| ==> r[i] == Render(FindAll(s)[i])
  {
    var rows := FindAll(s);
    seq(|rows|, i requires 0 <= i < |rows| => Render(rows[i]))
  }
}

=== FILE: listener.dfy ===
/** The domain service's queue listener (`RabbitMQListener.processMessage`):
    decode one message and apply it to the store through the repository. */
module Listener {
  import opened Basics
  import opened Records
  import opened Repository
  import opened Decimal
  import opened Command

  /** The repository call a decoded command makes: CREATE saves an entity
      without an id, UPDATE saves one carrying the decoded id, DELETE deletes
      by id. */
  function Apply(s: Store, c: Command): (r: Store)
    ensures c.Create? ==>
              && FindById(r, s.nextId) == Some(Employee(s.nextId, c.info))
              && (forall id :: id != s.nextId ==> FindById(r, id) == FindById(s, id))
    ensures c.Update? && c.id in s.rows ==>
              && FindById(r, c.id) == Some(Employee(c.id, c.info))
              && (forall id :: id != c.id ==> FindById(r, id) == FindById(s, id))
    ensures c.Update? && c.id !in s.rows && s.onMissingId == SkipSave ==> r == s
    ensures c.Update? && c.id !in s.rows && s.onMissingId == InsertWithFreshId ==> r == SaveNew(s, c.info).0
    ensures c.Delete? ==>
              && FindById(r, c.id) == None
              && (forall id :: id != c.id ==> FindById(r, id) == FindById(s, id))
    ensures Valid(s) ==> Valid(r)
  {
    match c
    case Create(f) => SaveNew(s, f).0
    case Update(id, f) => SaveWithId(s, Employee(id, f))
    case Delete(id) => DeleteById(s, id)
  }

  /** `processMessage`: a message that decodes is applied; an unknown
      operation falls through the switch; a malformed one throws before the
      repository is called, so nothing is written in either case. */
  function ProcessMessage(s: Store, msg: string): (r: Store)
    ensures !Decode(msg).Parsed? ==> r == s
    ensures Decode(msg).Parsed? ==> r == Apply(s, Decode(msg).command)
    ensures Valid(s) ==> Valid(r)
  {
    match Decode(msg)
    case Parsed(c) => Apply(s, c)
    case UnknownOperation(_) => s
    case Malformed(_) => s
  }

  /** What the controller publishes is applied as the command it encodes. */
  lemma ProcessEncoded(s: Store, c: Command)
    requires Encodable(c)
    ensures ProcessMessage(s, Encode(c)) == Apply(s, c)
  {
    DecodeEncode(c);
  }

  /** A CREATE message delivered twice produces two rows with distinct ids
      and the same fields: creation is not idempotent. */
  lemma DuplicateCreateMakesTwoRows(s: Store, f: Fields)
    requires Valid(s)
    requires Encodable(Create(f))
    ensures var msg := Encode(Create(f));
            var once := ProcessMessage(s, msg);
            var twice := ProcessMessage(once, msg);
            && s.nextId != once.nextId
            && s.nextId !in s.rows && once.nextId !in s.rows
            && FindById(twice, s.nextId) == Some(Employee(s.nextId, f))
            && FindById(twice, once.nextId) == Some(Employee(once.nextId, f))
  {
    var msg := Encode(Create(f));
    ProcessEncoded(s, Create(f));
    var once := ProcessMessage(s, msg);
    ProcessEncoded(once, Create(f));
    assert once == SaveNew(s, f).0;
  }

  /** An UPDATE delivered twice has the effect of one delivery, when the id
      has a row or the store skips saves of unknown ids. */
  lemma DuplicateUpdateIsIdempotent(s: Store, id: Long, f: Fields)
    requires Encodable(Update(id, f))
    requires id in s.rows || s.onMissingId == SkipSave
    ensures var msg := Encode(Update(id, f));
            ProcessMessage(ProcessMessage(s, msg), msg) == ProcessMessage(s, msg)
  {
    var c := Update(id, f);
    ProcessEncoded(s, c);
    ProcessEncoded(Apply(s, c), c);
    ApplyUpdateTwice(s, id, f);
  }

  /** Applying the same UPDATE twice is applying it once, when the id has a
      row or unknown ids are skipped. */
  lemma ApplyUpdateTwice(s: Store, id: Long, f: Fields)
    requires id in s.rows || s.onMissingId == SkipSave
    ensures Apply(Apply(s, Update(id, f)), Update(id, f)) == Apply(s, Update(id, f))
  {
    if id in s.rows {
      assert Apply(s, Update(id, f)).rows == s.rows[id := Employee(id, f)];
    }
  }

  /** When the store inserts saves of unknown ids under fresh ids, a
      redelivered UPDATE of an absent id inserts a second row (unless the
      first delivery happened to be given the very id the command names). */
  lemma DuplicateUpdateOfAbsentIdInsertsTwice(s: Store, id: Long, f: Fields)
    requires Valid(s)
    requires Encodable(Update(id, f))
    requires id !in s.rows && id != s.nextId && s.onMissingId == InsertWithFreshId
    ensures var msg := Encode(Update(id, f));
            var once := ProcessMessage(s, msg);
            var twice := ProcessMessage(once, msg);
            && FindById(twice, s.nextId) == Some(Employee(s.nextId, f))
            && FindById(twice, s.nextId + 1) == Some(Employee(s.nextId + 1, f))
            && twice != once
  {
    var c := Update(id, f);
    ProcessEncoded(s, c);
    var once := ProcessMessage(s, Encode(c));
    ProcessEncoded(once, c);
    ApplyUpdateOfAbsentIdTwice(s, id, f);
  }

  lemma ApplyUpdateOfAbsentIdTwice(s: Store, id: Long, f: Fields)
    requires Valid(s)
    requires id !in s.rows && id != s.nextId && s.onMissingId == InsertWithFreshId
    ensures var once := Apply(s, Update(id, f));
            var twice := Apply(once, Update(id, f));
            && FindById(twice, s.nextId) == Some(Employee(s.nextId, f))
            && FindById(twice, s.nextId + 1) == Some(Employee(s.nextId + 1, f))
            && twice != once
  {
    var once := Apply(s, Update(id, f));
    assert once == SaveNew(s, f).0;
    assert id !in once.rows;
    var twice := Apply(once, Update(id, f));
    assert twice == SaveNew(once, f).0;
    assert twice.nextId != once.nextId;
  }

  /** A DELETE delivered twice has the effect of one delivery. */
  lemma DuplicateDeleteIsIdempotent(s: Store, id: Long)
    ensures var msg := Encode(Delete(id));
            ProcessMessage(ProcessMessage(s, msg), msg) == ProcessMessage(s, msg)
  {
    ProcessEncoded(s, Delete(id));
    ProcessEncoded(ProcessMessage(s, Encode(Delete(id))), Delete(id));
  }
}

=== FILE: records.dfy ===
/** The employee record as it travels through the system.

    The salary (a Java `double`) and the hire date (a `java.time.LocalDate`)
    are tokens: their textual form is carried unchanged. The model relies on
    two properties of that text only: neither is ever empty, and a salary
    always holds a decimal point while a date never does. */
module Records {
  import opened Basics

  /** A salary as the listener receives it: the text `%f` prints for a
      `double`, which always holds a decimal point. */
  predicate IsSalaryText(s: string) {
    s != [] && '.' in s
  }

  /** A hire date as `LocalDate.toString` prints it: ISO `yyyy-MM-dd`,
      which never holds a decimal point. */
  predicate IsDateText(s: string) {
    s != [] && '.' !in s
  }

  type Salary = s: string | IsSalaryText(s) witness "0.000000"

  type Date = s: string | IsDateText(s) witness "1970-01-01"

  /** The salary carried by a protobuf default instance (0.0). */
  const ZeroSalary: Salary := "0.0"

  /** The four user-supplied fields (`NewEmployeeRequest`). */
  datatype Fields = Fields(name: string, position: string, salary: Salary, hireDate: Date)

  /** One employee with its store-assigned id. The domain entity `Employee`
      and the gateway's `EmployeeDto` carry exactly these five fields, so
      one datatype stands for both. */
  datatype Employee = Employee(id: int, info: Fields)

  /** `Double.parseDouble` on a salary token: succeeds on text shaped like
      what `%f` prints (non-empty, with a decimal point) and yields that text;
      fails (NumberFormatException) otherwise. */
  function ParseSalary(token: string): (r: Option<Salary>)
    ensures r.Some? <==> IsSalaryText(token)
    ensures r.Some? ==> r.value == token
  {
    if IsSalaryText(token) then Some(token) else None
  }

  /** `LocalDate.parse` on a date token: fails (DateTimeParseException) on
      the empty token and on any token with a decimal point, which no ISO
      date has; otherwise yields the token. */
  function ParseDate(token: string): (r: Option<Date>)
    ensures r.Some? <==> IsDateText(token)
    ensures r.Some? ==> r.value == token
  {
    if IsDateText(token) then Some(token) else None
  }

  /** No text is both a salary and a date. */
  lemma SalaryIsNeverADate(s: Salary)
    ensures ParseDate(s) == None
  {
    assert '.' in s;
  }
}

=== FILE: repository.dfy ===
/** The domain service's employee repository (a JPA repository over one table),
    as an explicit value: the rows by id, the order `findAll` lists them in,
    and the next id the database will generate. */
module Repository {
  import opened Basics
  import opened Records

  /** What `save` does with an entity whose id has no row. JPA's `save` merges
      such an entity; the outcome depends on the persistence provider and the
      id generator, which are not part of this model, so it is a parameter of
      the store; the properties below hold for either choice or say which one
      they need. */
  datatype MissingIdSave =
    | SkipSave           // nothing is written
    | InsertWithFreshId  // a new row is inserted under a newly generated id

  datatype Store = Store(
    rows: map<int, Employee>,
    order: seq<int>,          // the order `findAll` returns rows in
    nextId: int,              // the id the next insert is given
    onMissingId: MissingIdSave)

  /** An empty table whose id sequence starts at 1. */
  function EmptyStore(policy: MissingIdSave): (s: Store)
    ensures Valid(s)
    ensures FindAll(s) == []
  {
    Store(map[], [], 1, policy)
  }

  predicate Distinct(xs: seq<int>) {
    forall i, j :: 0 <= i < j < |xs| ==> xs[i] != xs[j]
  }

  /** The representation invariant: every row is stored under its own id,
      ids come from the generator (1, 2, ...), and `order` lists every row once. */
  predicate Valid(s: Store) {
    && 1 <= s.nextId
    && (forall id :: id in s.rows ==> s.rows[id].id == id && 1 <= id < s.nextId)
    && Distinct(s.order)
    && (forall i :: 0 <= i < |s.order| ==> s.order[i] in s.rows)
    && (forall id :: id in s.rows ==> id in s.order)
  }

  /** `findById`: the row stored under `id`, which in a valid store carries
      that id, or nothing. */
  function FindById(s: Store, id: int): (r: Option<Employee>)
    ensures r.Some? <==> id in s.rows
    ensures r.Some? ==> r.value == s.rows[id]
    ensures Valid(s) && r.Some? ==> r.value.id == id
  {
    if id in s.rows then Some(s.rows[id]) else None
  }

  /** The rows named by `order`, in that order. */
  function RowsInOrder(order: seq<int>, rows: map<int, Employee>): (r: seq<Employee>)
    ensures |r| <= |order|
    ensures forall i :: 0 <= i < |r| ==> r[i] in rows.Values
    ensures (forall i :: 0 <= i < |order| ==> order[i] in rows) ==>
              |r| == |order| && forall i :: 0 <= i < |r| ==> r[i] == rows[order[i]]
  {
    if order == [] then []
    else
      var rest := RowsInOrder(order[1..], rows);
      if order[0] in rows then [rows[order[0]]] + rest else rest
  }

  /** `findAll`: only stored rows, and in a valid store one per entry of
      `order`, in that order. */
  function FindAll(s: Store): (r: seq<Employee>)
    ensures forall i :: 0 <= i < |r| ==> r[i] in s.rows.Values
    ensures Valid(s) ==> |r| == |s.order| && forall i :: 0 <= i < |r| ==> r[i] == s.rows[s.order[i]]
  {
    RowsInOrder(s.order, s.rows)
  }

  /** `save` of an entity without an id: a new row under the generated id. */
  function SaveNew(s: Store, info: Fields): (r: (Store, int))
    ensures r.1 == s.nextId && r.0.nextId == s.nextId + 1
    ensures Valid(s) ==> r.1 !in s.rows && Valid(r.0)
    ensures FindById(r.0, r.1) == Some(Employee(r.1, info))
    ensures forall id :: id != r.1 ==> FindById(r.0, id) == FindById(s, id)
    ensures Valid(s) ==> FindAll(r.0) == FindAll(s) + [Employee(r.1, info)]
  {
    var id := s.nextId;
    var s' := s.(rows := s.rows[id := Employee(id, info)], order := s.order + [id], nextId := id + 1);
    if Valid(s) then
      InsertKeepsValid(s, info);
      InsertAppendsToFindAll(s, info);
      (s', id)
    else
      (s', id)
  }

  /** Inserting under the generated id keeps the store invariant. */
  lemma InsertKeepsValid(s: Store, info: Fields)
    requires Valid(s)
    ensures var id := s.nextId;
            Valid(s.(rows := s.rows[id := Employee(id, info)], order := s.order + [id], nextId := id + 1))
  {
    var id := s.nextId;
    assert id !in s.order;
    var order := s.order + [id];
    assert forall i :: 0 <= i < |s.order| ==> order[i] == s.order[i];
  }

  /** A row inserted under the generated id is listed last by `findAll`. */
  lemma InsertAppendsToFindAll(s: Store, info: Fields)
    requires Valid(s)
    ensures var id := s.nextId;
            var s' := s.(rows := s.rows[id := Employee(id, info)], order := s.order + [id], nextId := id + 1);
            FindAll(s') == FindAll(s) + [Employee(id, info)]
  {
    var id := s.nextId;
    var rows := s.rows[id := Employee(id, info)];
    var order := s.order + [id];
    var before := FindAll(s);
    var after := RowsInOrder(order, rows);
    assert forall i :: 0 <= i < |order| ==> order[i] in rows;
    assert |after| == |order| == |before| + 1;
    forall i | 0 <= i < |after|
      ensures after[i] == (before + [Employee(id, info)])[i]
    {
      if i < |s.order| {
        assert order[i] == s.order[i] && s.order[i] != id;
      }
    }
  }

  /** `save` of an entity that carries an id: an existing row is overwritten
      in place; an unknown id is handled as the store's policy says. */
  function SaveWithId(s: Store, e: Employee): (r: Store)
    ensures e.id in s.rows ==>
              && FindById(r, e.id) == Some(e)
              && (forall id :: id != e.id ==> FindById(r, id) == FindById(s, id))
              && r.order == s.order && r.nextId == s.nextId
    ensures e.id !in s.rows && s.onMissingId == SkipSave ==> r == s
    ensures e.id !in s.rows && s.onMissingId == InsertWithFreshId ==> r == SaveNew(s, e.info).0
    ensures Valid(s) ==> Valid(r)
  {
    if e.id in s.rows then s.(rows := s.rows[e.id := e])
    else match s.onMissingId
      case SkipSave => s
      case InsertWithFreshId => SaveNew(s, e.info).0
  }

  /** `xs` with every occurrence of `x` removed. */
  function Without(xs: seq<int>, x: int): (r: seq<int>)
    ensures forall y :: y in r <==> y in xs && y != x
    ensures Distinct(xs) ==> Distinct(r)
  {
    if xs == [] then []
    else
      var rest := Without(xs[1..], x);
      if xs[0] == x then rest
      else
        assert Distinct(xs) ==> xs[0] !in xs[1..];
        [xs[0]] + rest
  }

  /** `deleteById`: removes the row if there is one; an absent id is a no-op. */
  function DeleteById(s: Store, id: int): (r: Store)
    ensures FindById(r, id) == None
    ensures forall other :: other != id ==> FindById(r, other) == FindById(s, other)
    ensures id !in s.rows ==> r == s
    ensures r.nextId == s.nextId
    ensures Valid(s) ==> Valid(r)
  {
    if id in s.rows then
      var order := Without(s.order, id);
      assert forall i :: 0 <= i < |order| ==> order[i] in order;
      s.(rows := s.rows - {id}, order := order)
    else s
  }

  /** `findAll` lists every stored row exactly once. */
  lemma FindAllListsEveryRowOnce(s: Store)
    requires Valid(s)
    ensures forall i :: 0 <= i < |FindAll(s)| ==> FindById(s, FindAll(s)[i].id) == Some(FindAll(s)[i])
    ensures forall id :: id in s.rows ==> exists i :: 0 <= i < |FindAll(s)| && FindAll(s)[i].id == id
    ensures forall i, j :: 0 <= i < j < |FindAll(s)| ==> FindAll(s)[i].id != FindAll(s)[j].id
  {
    var all := FindAll(s);
    forall id | id in s.rows
      ensures exists i :: 0 <= i < |all| && all[i].id == id
    {
      var i :| 0 <= i < |s.order| && s.order[i] == id;
      assert all[i].id == id;
    }
  }
}

=== FILE: scenarios.dfy ===
/** Whole-system traces: the gateway, the queue, the listener and the cache
    composed, showing the consistency the caching gives up for latency and
    what it keeps. */
module Scenarios {
  import opened Basics
  import opened Decimal
  import opened Records
  import opened Repository
  import opened Command
  import opened Cache
  import opened Gateway
  import Listener

  /** A read that lands between an accepted update and its delivery caches
      the old record; once the update is applied the cache keeps serving the
      old record for the whole hour the entry lives, and from its expiry on
      the new one is read. */
  lemma StaleReadAfterUpdate(sys: System, id: Long, f: Fields)
    requires sys.queue == []
    requires id in sys.store.rows && sys.store.rows[id].info != f
    requires Encodable(Update(id, f))
    ensures var before := sys.store.rows[id];
            var accepted := UpdateEmployee(sys, id, f, Healthy);
            var read1 := GetEmployeeById(accepted.0, id, Healthy);
            var applied := Deliver(read1.0);
            var read2 := GetEmployeeById(applied, id, Healthy);
            var read3 := GetEmployeeById(Advance(read2.0, Ttl), id, Healthy);
            && accepted.1.status == 202
            && read1.1 == Response(200, Some(before))
            && FindById(applied.store, id) == Some(Employee(id, f))
            && read2.1 == Response(200, Some(before))
            && before != Employee(id, f)
            && read3.1 == Response(200, Some(Employee(id, f)))
            && (forall d: nat :: d < Ttl ==>
                  GetEmployeeById(Advance(applied, d), id, Healthy).1 == Response(200, Some(before)))
            && (forall d: nat :: Ttl <= d ==>
                  GetEmployeeById(Advance(applied, d), id, Healthy).1 == Response(200, Some(Employee(id, f))))
  {
    var before := sys.store.rows[id];
    var accepted := UpdateEmployee(sys, id, f, Healthy);
    var read1 := GetEmployeeById(accepted.0, id, Healthy);
    ReadBeforeDeliveryCachesOld(sys, id, f);
    var s2 := read1.0;
    var applied := Deliver(s2);
    DeliveryAppliesUpdate(s2, id, f);
    ReadsAcrossExpiry(applied, id, before);
    assert Advance(applied, 0) == applied;
  }

  /** The first two steps of the trace: the update is accepted and queued,
      and a read before delivery caches the old row for the next hour. */
  lemma ReadBeforeDeliveryCachesOld(sys: System, id: Long, f: Fields)
    requires sys.queue == []
    requires id in sys.store.rows
    ensures var accepted := UpdateEmployee(sys, id, f, Healthy);
            var read1 := GetEmployeeById(accepted.0, id, Healthy);
            var s2 := read1.0;
            && accepted.1.status == 202
            && read1.1 == Response(200, Some(sys.store.rows[id]))
            && s2.queue == [Encode(Update(id, f))]
            && s2.store == sys.store && s2.clock == sys.clock
            && (forall t :: sys.clock <= t < sys.clock + Ttl ==>
                  GetCachedEmployee(s2.cache, id, t, true) == Some(sys.store.rows[id]))
            && (forall t :: sys.clock + Ttl <= t ==> GetCachedEmployee(s2.cache, id, t, true) == None)
  {
    var accepted := UpdateEmployee(sys, id, f, Healthy);
    var s1 := accepted.0;
    assert GetCachedEmployee(s1.cache, id, s1.clock, true) == None;
  }

  /** The race the two halves of a read allow. A read misses the cache and
      fetches the old row; an update is then accepted, which evicts the
      record, and delivered; only then does the read cache what it fetched.
      The store holds the new row, yet every read for the next hour answers
      the old one. */
  lemma ReadRacingUpdateCachesStaleRow(sys: System, id: Long, f: Fields)
    requires sys.queue == []
    requires GetCachedEmployee(sys.cache, id, sys.clock, true) == None
    requires id in sys.store.rows && sys.store.rows[id].info != f
    requires Encodable(Update(id, f))
    ensures var before := sys.store.rows[id];
            var fetched := FetchEmployee(sys, id, Healthy);
            var applied := Deliver(UpdateEmployee(sys, id, f, Healthy).0);
            var answered := AnswerFetched(applied, id, fetched, Healthy);
            && fetched == Ok(Some(before))
            && GetEmployeeById(sys, id, Healthy) == AnswerFetched(sys, id, fetched, Healthy)
            && answered.1 == Response(200, Some(before))
            && FindById(answered.0.store, id) == Some(Employee(id, f))
            && before != Employee(id, f)
            && (forall d: nat :: d < Ttl ==>
                  GetEmployeeById(Advance(answered.0, d), id, Healthy).1 == Response(200, Some(before)))
  {
    var accepted := UpdateEmployee(sys, id, f, Healthy);
    DeliveryAppliesUpdate(accepted.0, id, f);
    var applied := Deliver(accepted.0);
    var answered := AnswerFetched(applied, id, FetchEmployee(sys, id, Healthy), Healthy);
    ReadsAcrossExpiry(answered.0, id, sys.store.rows[id]);
  }

  /** Delivering a queued UPDATE of a stored row overwrites that row and
      leaves the cache and the clock alone. */
  lemma DeliveryAppliesUpdate(sys: System, id: Long, f: Fields)
    requires sys.queue == [Encode(Update(id, f))]
    requires id in sys.store.rows && Encodable(Update(id, f))
    ensures var applied := Deliver(sys);
            && FindById(applied.store, id) == Some(Employee(id, f))
            && applied.cache == sys.cache && applied.clock == sys.clock
  {
    Listener.ProcessEncoded(sys.store, Update(id, f));
  }

  /** With a record cached for the hour starting now, every read within the
      hour answers the cached record, whatever the store holds, and every
      read from the hour on answers the stored row. */
  lemma ReadsAcrossExpiry(sys: System, id: Long, cached: Employee)
    requires id in sys.store.rows
    requires forall t :: sys.clock <= t < sys.clock + Ttl ==> GetCachedEmployee(sys.cache, id, t, true) == Some(cached)
    requires forall t :: sys.clock + Ttl <= t ==> GetCachedEmployee(sys.cache, id, t, true) == None
    ensures forall d: nat :: d < Ttl ==>
              GetEmployeeById(Advance(sys, d), id, Healthy).1 == Response(200, Some(cached))
    ensures forall d: nat :: Ttl <= d ==>
              GetEmployeeById(Advance(sys, d), id, Healthy).1 == Response(200, Some(sys.store.rows[id]))
  {
    forall d: nat | d < Ttl
      ensures GetEmployeeById(Advance(sys, d), id, Healthy).1 == Response(200, Some(cached))
    {
      var at := Advance(sys, d);
      assert GetCachedEmployee(at.cache, id, at.clock, true) == Some(cached);
    }
    forall d: nat | Ttl <= d
      ensures GetEmployeeById(Advance(sys, d), id, Healthy).1 == Response(200, Some(sys.store.rows[id]))
    {
      var at := Advance(sys, d);
      assert GetCachedEmployee(at.cache, id, at.clock, true) == None;
    }
  }

  /** A created employee becomes readable once its message is delivered: the
      list was evicted when the request was accepted, so the next listing
      ends with the new row, and a read by the generated id misses the cache,
      finds the row and caches it. */
  lemma CreateThenRead(sys: System, f: Fields)
    requires sys.queue == [] && Valid(sys.store)
    requires Encodable(Create(f))
    requires sys.store.nextId <= MaxLong
    requires GetCachedEmployee(sys.cache, sys.store.nextId, sys.clock, true) == None
    ensures var id: Long := sys.store.nextId;
            var accepted := CreateEmployee(sys, f, Healthy);
            var applied := Deliver(accepted.0);
            var listed := GetAllEmployees(applied, Healthy);
            var read := GetEmployeeById(applied, id, Healthy);
            && accepted.1.status == 202
            && listed.1 == Response(200, Some(FindAll(sys.store) + [Employee(id, f)]))
            && read.1 == Response(200, Some(Employee(id, f)))
            && GetCachedEmployee(read.0.cache, id, sys.clock, true) == Some(Employee(id, f))
  {
    var id: Long := sys.store.nextId;
    var accepted := CreateEmployee(sys, f, Healthy);
    var s1 := accepted.0;
    assert s1.queue == [Encode(Create(f))];
    assert GetCachedEmployee(s1.cache, id, s1.clock, true) == None by {
      assert Lookup(s1.cache, EmployeeKey(id)) == Lookup(sys.cache, EmployeeKey(id));
    }
    var applied := Deliver(s1);
    Listener.ProcessEncoded(s1.store, Create(f));
    assert applied.store == SaveNew(sys.store, f).0;
    assert GetCachedAllEmployees(applied.cache, applied.clock, true) == [];
    assert FindAll(applied.store) == FindAll(sys.store) + [Employee(id, f)];
    assert FindById(applied.store, id) == Some(Employee(id, f));
  }

  /** A lookup of an id with no row answers 404 every time and caches
      nothing, so each repeat goes back to the store. */
  lemma MissingIdIsNeverCached(sys: System, id: Long, env: Env)
    requires env.rpcUp
    requires GetCachedEmployee(sys.cache, id, sys.clock, env.redisUp) == None
    requires id !in sys.store.rows
    ensures var first := GetEmployeeById(sys, id, env);
            var second := GetEmployeeById(first.0, id, env);
            && first == (sys, Response(404, None))
            && second == first
  {
  }

  /** With Redis down every read is served from the store, and nothing is
      cached: the cache fails open. */
  lemma RedisDownReadsThrough(sys: System, id: Long, brokerUp: bool)
    ensures var r := GetEmployeeById(sys, id, Env(false, true, brokerUp));
            && r.0 == sys
            && r.1.body == FindById(sys.store, id)
            && r.1.status == (if id in sys.store.rows then 200 else 404)
  {
  }

  /** With the broker down a write is still answered 202, but its message is
      gone: the queue is exactly what it was, so every delivery afterwards
      does what it would have done without the request. */
  lemma LostWriteStillAccepted(sys: System, id: Long, f: Fields, redisUp: bool)
    ensures var accepted := UpdateEmployee(sys, id, f, Env(redisUp, true, false));
            && accepted.1.status == 202
            && accepted.0.queue == sys.queue && accepted.0.store == sys.store
            && Deliver(accepted.0).store == Deliver(sys).store
            && Deliver(accepted.0).queue == Deliver(sys).queue
            && (sys.queue == [] ==> Deliver(accepted.0).store == sys.store)
  {
  }
}

=== FILE: text.dfy ===
/** Java's `String.split` on a single delimiter character, and the matching join.

    `s.split(d)` (limit 0) cuts `s` at every occurrence of `d`; when there is
    no occurrence the result is `[s]` (so `"".split(d)` is `[""]`); otherwise
    trailing empty pieces are dropped (so `",".split(",")` is `[]`). */
module Text {

  /** Every piece between occurrences of `d`, including empty ones. */
  function SplitAll(s: string, d: char): (r: seq<string>)
    ensures 1 <= |r|
    ensures forall i :: 0 <= i < |r| ==> d !in r[i]
    ensures d !in s ==> r == [s]
    decreases |s|
  {
    if s == [] then [""]
    else
      var rest := SplitAll(s[1..], d);
      if s[0] == d then [""] + rest
      else
        assert s == [s[0]] + s[1..];
        [[s[0]] + rest[0]] + rest[1..]
  }

  /** Removes empty pieces from the end. */
  function DropTrailingEmpty(xs: seq<string>): (r: seq<string>)
    ensures r <= xs
    ensures r == [] || r[|r| - 1] != ""
    ensures forall i :: |r| <= i < |xs| ==> xs[i] == ""
  {
    if xs == [] then []
    else if xs[|xs| - 1] == "" then DropTrailingEmpty(xs[..|xs| - 1])
    else xs
  }

  /** `s.split(String.valueOf(d))` as Java computes it. */
  function Split(s: string, d: char): (r: seq<string>)
    ensures forall i :: 0 <= i < |r| ==> d !in r[i]
    ensures d !in s ==> r == [s]
    ensures d in s ==> r <= SplitAll(s, d) && (r == [] || r[|r| - 1] != "")
    ensures d in s ==> forall i :: |r| <= i < |SplitAll(s, d)| ==> SplitAll(s, d)[i] == ""
  {
    if d !in s then [s] else DropTrailingEmpty(SplitAll(s, d))
  }

  /** The pieces glued together with `d` between consecutive ones. */
  function Join(xs: seq<string>, d: char): (s: string)
    requires 1 <= |xs|
    ensures |xs[|xs| - 1]| <= |s|
    decreases |xs|
  {
    if |xs| == 1 then xs[0] else xs[0] + [d] + Join(xs[1..], d)
  }

  predicate NoneContains(xs: seq<string>, d: char) {
    forall i :: 0 <= i < |xs| ==> d !in xs[i]
  }

  /** Cutting a prefix free of `d` off at its first `d`. */
  lemma {:induction false} SplitAllCons(a: string, b: string, d: char)
    requires d !in a
    ensures SplitAll(a + [d] + b, d) == [a] + SplitAll(b, d)
    decreases |a|
  {
    if a == [] {
      assert a + [d] + b == [d] + b;
      assert ([d] + b)[1..] == b;
    } else {
      var s := a + [d] + b;
      assert s[0] == a[0];
      assert s[1..] == a[1..] + [d] + b;
      SplitAllCons(a[1..], b, d);
      assert [a[0]] + a[1..] == a;
    }
  }

  /** Splitting what `Join` glued gives back the pieces, when no piece contains `d`. */
  lemma {:induction false} SplitAllJoin(xs: seq<string>, d: char)
    requires 1 <= |xs|
    requires NoneContains(xs, d)
    ensures SplitAll(Join(xs, d), d) == xs
    decreases |xs|
  {
    if |xs| > 1 {
      assert NoneContains(xs[1..], d) by {
        forall i | 0 <= i < |xs[1..]| ensures d !in xs[1..][i] {
          assert xs[1..][i] == xs[i + 1];
        }
      }
      SplitAllJoin(xs[1..], d);
      assert d !in xs[0];
      SplitAllCons(xs[0], Join(xs[1..], d), d);
      assert [xs[0]] + xs[1..] == xs;
    }
  }

  /** Joining the pieces of a split gives back the string. */
  lemma {:induction false} JoinSplitAll(s: string, d: char)
    ensures Join(SplitAll(s, d), d) == s
    decreases |s|
  {
    if s != [] {
      var tail := s[1..];
      var rest := SplitAll(tail, d);
      JoinSplitAll(tail, d);
      assert s == [s[0]] + tail;
      if s[0] == d {
        JoinEmptyFirst(rest, d);
      } else {
        JoinPrepend(s[0], rest, d);
      }
    }
  }

  /** An empty first piece contributes only its delimiter. */
  lemma JoinEmptyFirst(rest: seq<string>, d: char)
    requires 1 <= |rest|
    ensures Join([""] + rest, d) == [d] + Join(rest, d)
  {
    assert ([""] + rest)[1..] == rest;
  }

  /** A character prepended to the first piece is prepended to the join. */
  lemma JoinPrepend(c: char, rest: seq<string>, d: char)
    requires 1 <= |rest|
    ensures Join([[c] + rest[0]] + rest[1..], d) == [c] + Join(rest, d)
  {
    var r := [[c] + rest[0]] + rest[1..];
    if |rest| > 1 {
      assert r[1..] == rest[1..];
      assert Join(r, d) == r[0] + [d] + Join(rest[1..], d);
    }
  }

  /** A character no piece contains, other than `d`, is not in the join. */
  lemma {:induction false} JoinAvoids(xs: seq<string>, d: char, c: char)
    requires 1 <= |xs|
    requires c != d && NoneContains(xs, c)
    ensures c !in Join(xs, d)
    decreases |xs|
  {
    if |xs| > 1 {
      assert NoneContains(xs[1..], c) by {
        forall i | 0 <= i < |xs[1..]| ensures c !in xs[1..][i] {
          assert xs[1..][i] == xs[i + 1];
        }
      }
      JoinAvoids(xs[1..], d, c);
      assert c !in xs[0];
    }
  }

  lemma JoinContains(xs: seq<string>, d: char)
    requires 2 <= |xs|
    ensures d in Join(xs, d)
  {
    assert Join(xs, d)[|xs[0]|] == d;
  }

  /** The Java split of a join gives the pieces back, provided no piece
      contains `d` and the last piece is not empty (Java would drop it). */
  lemma SplitJoin(xs: seq<string>, d: char)
    requires 1 <= |xs|
    requires NoneContains(xs, d)
    requires xs[|xs| - 1] != ""
    ensures Split(Join(xs, d), d) == xs
  {
    if |xs| == 1 {
      assert Join(xs, d) == xs[0];
    } else {
      JoinContains(xs, d);
      SplitAllJoin(xs, d);
    }
  }

  /** A non-empty first piece survives the Java split, whatever follows it. */
  lemma SplitKeepsFirstPiece(a: string, b: string, d: char)
    requires a != "" && d !in a
    ensures |Split(a + [d] + b, d)| >= 1 && Split(a + [d] + b, d)[0] == a
  {
    var s := a + [d] + b;
    assert s[|a|] == d;
    SplitAllCons(a, b, d);
    var all := SplitAll(s, d);
    assert all[0] == a;
  }

  /** A piece holding `d` joins to the same text as its two halves. */
  lemma JoinSplitsPiece(a: string, b: string, tail: seq<string>, d: char)
    requires 1 <= |tail|
    ensures Join([a + [d] + b] + tail, d) == Join([a, b] + tail, d)
  {
    var xs := [a, b] + tail;
    assert xs[1..] == [b] + tail;
    assert xs[1..][1..] == tail;
    assert ([a + [d] + b] + tail)[1..] == tail;
  }
}
